=== FILE: README.md ===
# Document retrieval core: a Dafny model

This project models the logic at the centre of a patient-document service
written in JavaScript (Express, Supabase, OpenAI). The service has two
near-duplicate document controllers and one error middleware:

- `controllers/DocumentController.js`;
- `src/controllers/DocumentController.js`;
- `src/middleware/errorHandler.js`, together with the error that
  `src/middleware/notFoundHandler.js` hands to it.

The two controllers share one model. The only behavioural difference between
them is the `document_id` that `storeEmbedding` writes, captured by
`Ingestion.IdPolicy`:

- `controllers/DocumentController.js:170` keeps a truthy caller id
  (`RootControllerPolicy`);
- `src/controllers/DocumentController.js:141` always mints a fresh one
  (`SrcControllerPolicy`).

`controllers/DocumentController.js:6` holds a stray `";` line, so that module
would not parse as written. Its logic is modelled as if the line were absent.

The model is functional. Every call to the outside world becomes a parameter
holding that call's reply, an `Attempt<T>` that is `Ok(value)` or `Err(message)`.
The outside world here means Supabase storage and tables, the OpenAI
embedding and chat calls, `pdf-parse`, `mammoth`, `Math.sqrt`, `Date.now`,
`Math.random` and `uuidv4`. What a handler returns depends on what it can
touch:

- `uploadFiles` and `deleteDocument` change the in-memory `documents` array
  and call storage. They return a `Handled`: the response, the array
  afterwards, and the ordered list of external calls made.
- `getEmbeddingResponse` calls the embedding service, the table and the chat
  model, but leaves the array alone. It returns an `Answer`: the response and
  the calls.
- `getPatientDocuments` and `downloadDocument` only read the array. They
  return a bare `Response`.

Because the calls are part of the result, contracts can say "no external
call before validation" or "no insert".

Modules, following the source's structure:

| module | file | what it models |
|---|---|---|
| `Model` | model.dfy | documents, embedding rows, external calls, response bodies |
| `Text` | text.dfy | the JavaScript string operations used: `\s`, `trim`, `split`/`join`, `toLowerCase`, `includes` |
| `Html` | html.dfy | the four global regex replacements and the `trim` of the HTML branch |
| `HtmlExample` | html_example.dfy | the HTML branch run stage by stage on one page |
| `Extraction` | extraction.dfy | `extractTextFromBuffer`, `extractTextFromFile` |
| `Similarity` | similarity.dfy | `calculateCosineSimilarity` |
| `Ranking` | ranking.dfy | score, stable descending sort, `slice(0, limit)` |
| `Registry` | registry.dfy | `fileFilter`, `getPatientDocuments`, `downloadDocument`, `deleteDocument` |
| `Ingestion` | ingestion.dfy | `storeEmbedding`, `extractTextAndStoreEmbedding` |
| `Controller` | controller.dfy | `uploadFiles`, `getEmbeddingResponse` |
| `ErrorHandler` | error_handler.dfy | `errorHandler`, `notFoundHandler` |

## Behaviour worth noting

- Stored vectors of the wrong length are not excluded from ranking. They
  score 0 and stay in the candidate list (`Ranking.MismatchedRowScoresZero`).
- A document's `status` is set to `"uploaded"` and never changes. Ingestion
  does not write it back, and a failed ingestion is swallowed by the upload
  loop.
- `limit` is not clamped by the controllers. `src/routes/documentRoutes.js:27`
  validates 1 to 20 on the `src` routes only. `slice(0, limit)` with a
  `limit` beyond the row count returns every row (`Ranking.Top`).
- Deleting a document removes neither its embedding rows nor anything else in
  the embeddings table (`Registry.Delete`).
- `extractTextFromFile` is defined in `controllers/DocumentController.js` but
  never called. It also disagrees with the name-based extractor on HTML
  (`Extraction.HtmlByMimeIsVerbatim`).
- The error middleware reads the message of the 404 error, which contains the
  requested URL. A URL containing `supabase` or `openai` therefore turns the
  404 into a 500 (`ErrorHandler.NotFoundResponse`).
- The upload and query handlers each end in a catch-all that answers 500.
  In the model no step reachable from those handlers throws outside the inner
  `try` blocks, except the query's embedding request. That one is modelled.

## Model

| member | source | states |
|---|---|---|
| Text.Trim | controllers/DocumentController.js:136 | the trimmed text has no whitespace at either end and is no longer than the input |
| Text.TrimIsSlice | controllers/DocumentController.js:136 | the trimmed text is a slice of the input, and everything dropped on either side is whitespace |
| Text.BlankIffAllSpace | controllers/DocumentController.js:210 | `!text.trim()` holds exactly when the text is whitespace only |
| Text.Lower | controllers/DocumentController.js:114 | `toLowerCase` keeps the length and maps each character on its own |
| Text.Split | controllers/DocumentController.js:114 | `split` gives at least one piece, and no piece holds the separator |
| Text.JoinSplit | controllers/DocumentController.js:114 | joining the pieces of a split with the separator gives back the text |
| Text.AfterLast | controllers/DocumentController.js:114 | the text after the last separator is a separator-free suffix, preceded by the separator when shorter than the text |
| Text.AfterLastUnique | controllers/DocumentController.js:114 | those three properties determine the text after the last separator |
| Text.LastPieceIsAfterLast | controllers/DocumentController.js:114 | `split(sep).pop()` is the text after the last separator |
| Extraction.Extension | controllers/DocumentController.js:114 | the extension has no dot and is no longer than the file name |
| Extraction.ExtensionIsAfterLastDot | controllers/DocumentController.js:114 | the extension is the lower-cased text after the last dot |
| Extraction.ExtensionWithoutDot | controllers/DocumentController.js:114 | a name without a dot is its own extension, lower-cased |
| Extraction.ExtensionAfterTrailingDot | controllers/DocumentController.js:114 | a name ending in a dot has the empty extension |
| Extraction.ExtensionOfDotted | controllers/DocumentController.js:114 | `stem.ext` has extension `ext` lower-cased, whatever dots the stem holds |
| Extraction.FormatOf | controllers/DocumentController.js:116-140 | each branch of the switch is taken exactly for its extensions, and every other extension falls to the default |
| Extraction.ExtractFromBuffer | controllers/DocumentController.js:113-142 | `pdf` and `docx` names are answered by their parser, with its result or error unchanged; `txt` is returned verbatim and `html`/`htm` through the tag stripper; extraction fails only through a parser |
| Extraction.UnsupportedYieldsEmpty | controllers/DocumentController.js:138-140 | an unrecognised extension yields the empty text without failing |
| Extraction.TextOnlyFromKnownExtensions | controllers/DocumentController.js:116-140 | non-empty text comes only from pdf, docx, txt, html or htm |
| Extraction.DocAndCsvYieldEmpty | controllers/DocumentController.js:138-140 | `.doc` and `.csv` files yield the empty text |
| Extraction.MarkupFilesAreNormalised | controllers/DocumentController.js:128-136 | `.html`/`.htm` in any letter case go through the markup rewrite, whose result has no edge whitespace and no whitespace run |
| Extraction.ExtractFromFile | controllers/DocumentController.js:95-108 | by MIME type: the PDF and DOCX types are answered by their parser, every `text/` type is returned verbatim, anything else is empty; only the parsers can fail |
| Extraction.HtmlByMimeIsVerbatim | controllers/DocumentController.js:104-105 | an HTML file extracted by MIME type is returned unchanged |
| Html.FirstIndexOf | controllers/DocumentController.js:134 | the first position at or after the start that holds the character, and no earlier one holds it |
| Html.FindIgnoreCase | controllers/DocumentController.js:132-133 | the first position where the closing tag occurs, ignoring case, and no earlier one |
| Html.BlockMatchIsSpan | controllers/DocumentController.js:132-133 | a script or style match starts with `<tag` ignoring case, its opening text ends at the first `>` after that, and it ends with the first `</tag>` (ignoring case) after that `>` |
| Html.SpanIsBlockMatch | controllers/DocumentController.js:132-133 | conversely, whenever such a block is at the front, it is the match, with that length |
| Html.SpanExtends | controllers/DocumentController.js:132-133 | text after a complete block does not change its match |
| Html.BlockVanishes | controllers/DocumentController.js:132-133 | a complete script or style block at the front is removed whole and the scan resumes after it |
| Html.TagMatch | controllers/DocumentController.js:134 | a tag match starts with `<`, ends with `>` and has at least one character between |
| Html.SpaceRunMatch | controllers/DocumentController.js:135 | a `\s+` match covers the whole run of whitespace at the front |
| Html.HtmlToText | controllers/DocumentController.js:128-136 | the result has no tag, no whitespace at either end and no two adjacent whitespace characters, and keeps the visible characters of the tag-stripped text in order |
| Html.ReplaceChars | controllers/DocumentController.js:131-135 | every character of a replacement's output comes from the input or from the replacement text |
| Html.NoMatchUnchanged | controllers/DocumentController.js:131-135 | a pattern that matches nowhere leaves the text unchanged |
| Html.ReplaceCopies | controllers/DocumentController.js:131-135 | where the pattern does not match, one character is copied and the scan moves on |
| Html.ReplaceMatch | controllers/DocumentController.js:131-135 | a match is replaced as a whole and the scan resumes after it |
| Html.TagAtFront | controllers/DocumentController.js:134 | a complete tag at the front is matched exactly |
| Html.TagBecomesSpace | controllers/DocumentController.js:134 | a complete tag at the front becomes exactly one space |
| Html.TagsToSpacesLeavesNoTag | controllers/DocumentController.js:134 | after tags become spaces, no tag is left |
| Html.SpacesAtFront | controllers/DocumentController.js:135 | a whitespace run at the front is matched exactly |
| Html.SpaceRunBecomesSpace | controllers/DocumentController.js:135 | a whitespace run at the front becomes exactly one space |
| Html.CollapseHead | controllers/DocumentController.js:135 | the collapsed text starts with whitespace exactly when the input does |
| Html.CollapseLeavesNoDoubleSpace | controllers/DocumentController.js:135 | after collapsing, no two whitespace characters are adjacent |
| Html.CollapseKeepsNonSpace | controllers/DocumentController.js:135 | collapsing keeps every non-whitespace character, in order |
| Html.CollapseKeepsNoTag | controllers/DocumentController.js:135 | collapsing whitespace cannot create a tag |
| Html.TrimStartSpaces | controllers/DocumentController.js:136 | trimming the start drops exactly a leading whitespace run |
| Html.TrimEndSpaces | controllers/DocumentController.js:136 | trimming the end drops exactly a trailing whitespace run |
| Html.TrimKeeps | controllers/DocumentController.js:136 | `trim` keeps tag-freedom and the absence of whitespace runs, and drops only whitespace |
| Html.NotOpening | controllers/DocumentController.js:132-133 | a `<` followed by a letter other than the tag's first opens no block |
| Html.ExactPrefix | controllers/DocumentController.js:132-133 | an exact occurrence of the opening or closing text also matches under the `i` flag |
| Html.FindAfterNoAngle | controllers/DocumentController.js:132-133 | with no `<` in between, the lazy `[\s\S]*?` stops at the next closing tag |
| Html.NoMatchWithoutAngle | controllers/DocumentController.js:132-134 | no block and no tag starts at a character other than `<` |
| Html.CopyOne | controllers/DocumentController.js:132-134 | a character other than `<` is copied by the block and tag replacements |
| Html.CopyWithoutAngleTag | controllers/DocumentController.js:134 | text without `<` passes through the tag replacement unchanged |
| Html.NoBlockAt | controllers/DocumentController.js:132-133 | no block starts at a position unless a `<` there is followed by the tag's first letter |
| Html.NoOpeningUnchanged | controllers/DocumentController.js:132-133 | text in which no `<` is followed by the tag's first letter passes through the block replacement unchanged |
| Html.CopyWithoutSpace | controllers/DocumentController.js:135 | text without whitespace passes through the whitespace collapse unchanged |
| HtmlExample.HtmlExample | controllers/DocumentController.js:128-136 | `<script>bad()</script><p>Hello <b>World</b></p>` yields `Hello World` |
| HtmlExample.ExampleScripts | controllers/DocumentController.js:132 | the leading script block is one match and is removed with its content |
| HtmlExample.ExampleKeepsBody | controllers/DocumentController.js:132-133 | the visible part `<p>Hello <b>World</b></p>` holds no script or style block and is unchanged by both removals |
| HtmlExample.ExampleTags | controllers/DocumentController.js:134 | each of its four tags becomes one space: ` Hello  World  ` |
| HtmlExample.ExampleCollapse | controllers/DocumentController.js:135 | the whitespace runs collapse to ` Hello World ` |
| HtmlExample.ExampleTrim | controllers/DocumentController.js:136 | `trim` leaves `Hello World` |
| Similarity.SumSquares | controllers/DocumentController.js:78 | a sum of squares is never negative |
| Similarity.Cosine | controllers/DocumentController.js:67-90 | the similarity is 0 for a non-array, for different lengths, or when either norm is 0 |
| Similarity.DotCommutes | controllers/DocumentController.js:77 | the dot product is symmetric |
| Similarity.DotSelf | controllers/DocumentController.js:77-78 | a vector's dot product with itself is its sum of squares |
| Similarity.CosineSymmetric | controllers/DocumentController.js:72-89 | `sim(a, b) == sim(b, a)` for any square root |
| Similarity.ZeroVectorScoresZero | controllers/DocumentController.js:85-87 | an all-zero vector scores 0 against anything |
| Similarity.SelfSimilarity | controllers/DocumentController.js:89 | a vector with non-zero norm scores exactly 1 against itself |
| Similarity.CauchySchwarz | controllers/DocumentController.js:72-80 | the square of the dot product is at most the product of the sums of squares |
| Similarity.MixedSum | controllers/DocumentController.js:72-80 | the sum of squares of `x*b - y*a` expands into the accumulated sums |
| Similarity.CosineBounded | controllers/DocumentController.js:67-90 | with a true square root every similarity lies in [-1, 1] |
| Ranking.Insert | controllers/DocumentController.js:582 | inserting a position keeps the order sorted and adds exactly that position |
| Ranking.SortPrefix | controllers/DocumentController.js:582 | sorting the first n positions gives a sorted arrangement of exactly them |
| Ranking.Order | controllers/DocumentController.js:582 | the ranked order is a permutation of all positions with non-increasing scores, equal scores in input order |
| Ranking.SortedUnique | controllers/DocumentController.js:582 | two sorted arrangements of the same positions are equal |
| Ranking.StableDescendingIsOrder | controllers/DocumentController.js:582 | every stable descending sort of the scores yields exactly `Order` |
| Ranking.Top | controllers/DocumentController.js:582-583 | the top list has `min(limit, n)` distinct positions, non-increasing scores, ties in input order, and each kept position ranks ahead of every dropped one |
| Ranking.TopIsSlicedSort | controllers/DocumentController.js:582-583 | the top list is the first `min(limit, n)` entries of any stable descending sort |
| Ranking.TopExample | controllers/DocumentController.js:582-583 | scores [0.9, 0.1, 0.9, 0.5, 0.0] with limit 3 select positions 0, 2, 3 |
| Ranking.Scores | controllers/DocumentController.js:576-580 | one score per stored row, in row order, each the row's similarity to the query |
| Ranking.MismatchedRowScoresZero | controllers/DocumentController.js:68-70 | a row whose vector is not an array or has the wrong length scores 0 and stays in the list |
| Ranking.TopRows | controllers/DocumentController.js:576-583 | the rows handed to synthesis number `min(limit, n)` and are all stored rows |
| Ranking.TopRowsAreBest | controllers/DocumentController.js:576-583 | the kept rows are best first, and no dropped row scores higher than a kept one |
| Registry.FileFilter | src/controllers/DocumentController.js:26-50 | a file is accepted exactly when its MIME type is one of the ten listed, and otherwise rejected with the fixed message |
| Registry.ListedTypesAccepted | src/controllers/DocumentController.js:40-41 | each listed type is accepted |
| Registry.HtmlIsRejected | src/controllers/DocumentController.js:26-50 | `text/html` is rejected although `.html` names are extracted as markup |
| Registry.ForPatient | src/controllers/DocumentController.js:402-410 | the listing is never longer than the registry |
| Registry.ForPatientIsOwnedInOrder | src/controllers/DocumentController.js:402-410 | the listing is exactly the patient's documents, projected, in insertion order |
| Registry.ForPatientAppend | src/controllers/DocumentController.js:402-410 | appending a document adds its projection to its owner's listing only |
| Registry.ListDocuments | src/controllers/DocumentController.js:391-424 | a missing patient id is a 400, and anything else is a 200 with the patient's listing |
| Registry.FindById | src/controllers/DocumentController.js:592 | the position found holds the id and no earlier position does; none is found only when no position holds it |
| Registry.Download | src/controllers/DocumentController.js:426-462 | a missing id is a 400 and an unknown id a 404; for the first document with the id, an empty URL is a 404 "File URL not found." and otherwise a redirect to its URL; a redirect happens only then |
| Registry.Delete | src/controllers/DocumentController.js:581-631 | a missing id is a 400 and an unknown id a 404 with nothing changed; status 200 exactly for a known id; the embeddings table is never called |
| Registry.DeleteRemovesFirstMatch | src/controllers/DocumentController.js:592-617 | a delete removes exactly the first document with the id, keeps the others in order, and removes that document's storage object |
| Registry.DeleteKeepsLaterDuplicates | src/controllers/DocumentController.js:592-617 | a later document with the same id survives the delete |
| Registry.DeletedIsNotDownloadable | src/controllers/DocumentController.js:437-444 | once the only document with an id is deleted, downloading it answers 404 "Document not found." |
| Registry.DeleteIgnoresStorageReply | src/controllers/DocumentController.js:603-614 | a failing storage removal changes neither the response nor the registry |
| Ingestion.StoredDocumentId | controllers/DocumentController.js:170 | the stored id is the caller's id when it is non-empty, and the fresh id otherwise |
| Ingestion.StoreEmbedding | controllers/DocumentController.js:169-190 | one insert into `document_embeddings` with the user, vector, text and chosen id; it fails exactly when the insert fails, with that error |
| Ingestion.EmbedAndStorePolicies | src/controllers/DocumentController.js:141 | after the embedding the two controllers make the same calls except for the inserted `document_id`, which is the fresh id in src/ |
| Ingestion.EmbedAndStore | controllers/DocumentController.js:217-232 | the text is embedded, then one insert carries the user, the chosen id and exactly the returned vector; a failed embedding is rethrown before any insert, and with the embedding done the result succeeds exactly when the insert does, otherwise carrying the insert's error |
| Ingestion.DownloadedText | controllers/DocumentController.js:200-208 | a failed download is rethrown unchanged; after a download the text is the name-based extraction of the buffer; it fails only with the download's or a parser's error |
| Ingestion.IngestExtracted | controllers/DocumentController.js:210-232 | whitespace-only text stops after the download; other text is embedded, a failed embedding is rethrown after two calls, a failed insert after three, and with both succeeding the row of the user, chosen id, returned vector and text is stored |
| Ingestion.IngestText | controllers/DocumentController.js:198-239 | the calls are the download, then possibly the embedding, then possibly the insert of the extracted text for the user under the chosen id; a failed extraction is rethrown right after the download |
| Ingestion.ExtractAndStore | controllers/DocumentController.js:195-240 | a stored row has the user's id, the chosen document id and non-blank text, and so does any insert attempted; every failure carries the error of the step that failed |
| Ingestion.BlankTextIsSkipped | controllers/DocumentController.js:210-213 | text whose `trim()` is empty ends normally after the download, with no embedding call and no insert |
| Ingestion.InsertErrorIsRethrown | controllers/DocumentController.js:183-186 | a failing insert fails the ingestion with the insert's error, after the embedding was requested |
| Ingestion.FailuresAreRethrown | controllers/DocumentController.js:198-239 | a failed download or parser is rethrown right after the download, and a failed embedding of non-blank text right after the embedding request; nothing is inserted |
| Ingestion.SuccessStoresTextAndVector | controllers/DocumentController.js:169-232 | when every step succeeds on non-blank text, the three calls are made and the stored row holds the extracted text and exactly the returned vector |
| Ingestion.PoliciesDifferOnlyInDocumentId | src/controllers/DocumentController.js:163-208 | for a non-empty caller id the two controllers make the same calls, in the same order, except that each insert carries the caller id in one and the fresh id in the other; the stored rows differ only in `document_id` |
| Controller.ParseFailureMessage | controllers/DocumentController.js:287-302 | the two multer limit codes get their fixed messages; every other failure keeps its own message |
| Controller.UploadOne | controllers/DocumentController.js:324-400 | the entry is a success exactly when the storage upload succeeded, whatever ingestion did; only a success adds a document, owned by the patient, marked uploaded, with the file's MIME type, the storage path it was uploaded to and its public URL, which the entry repeats; ingestion then downloads that same path, and every insert it attempts is for the patient under the chosen document id |
| Controller.UploadAll | controllers/DocumentController.js:323-401 | one entry per file, in file order, each a success exactly when its upload succeeded |
| Controller.IngestCalls | controllers/DocumentController.js:379-385 | ingestion of an uploaded object starts with the download of that object and makes no other storage upload or download; its inserts are for the patient under the chosen id |
| Controller.FileCalls | controllers/DocumentController.js:329-385 | one iteration uploads the file to its own object with its MIME type; the upload is its only call exactly when it failed, and otherwise the next call downloads that object; no later storage upload or download; every insert is for the patient under the chosen id |
| Controller.FileCallsProjections | controllers/DocumentController.js:329-385 | one iteration makes exactly one storage upload, and downloads its object exactly when the upload succeeded |
| Controller.KeptAppend | controllers/DocumentController.js:323-401 | selecting the calls of one kind commutes with concatenating the calls of successive iterations |
| Controller.BatchUploads | controllers/DocumentController.js:323-338 | the batch's storage uploads are exactly one per file, in file order, each to that file's object with its MIME type |
| Controller.BatchDownloads | controllers/DocumentController.js:323-385 | the batch's storage downloads are exactly one per successfully uploaded file, in file order, each of that file's object |
| Controller.BatchInsertsForPatient | controllers/DocumentController.js:379-385 | every embedding row the batch inserts belongs to the patient |
| Controller.Successful | controllers/DocumentController.js:340-365 | the successfully uploaded files: each has a successful upload, and every file with a successful upload is among them |
| Controller.UploadedPositions | controllers/DocumentController.js:340-365 | the positions of the successfully uploaded files, increasing, and all of them |
| Controller.SuccessfulInOrder | controllers/DocumentController.js:323-401 | the successful files are exactly the files at those positions, in file order |
| Controller.AddedAreTheSuccessful | controllers/DocumentController.js:323-401 | the registry grows by one document per successful upload, in file order, with that file's name, id, MIME type and public URL |
| Controller.UploadFiles | controllers/DocumentController.js:284-417 | given multer's promise that an error-free parse passed every file through the filter: multer errors, no files and no patient id are 400s with nothing changed; otherwise a 200 with one entry per file, in file order, a success exactly when that file reached storage; the registry keeps its old documents and gains exactly one per successful upload, in order, with its id, name and URL; the storage uploads are one per file in file order, the downloads one per successful upload in order, and every insert is for the patient |
| Controller.RejectedTypeAbortsUpload | controllers/DocumentController.js:297-301 | a request holding a file the filter rejects is a 400 with no storage call and no registry change, with the filter's message when that is multer's error |
| Controller.StoredTypesAreAccepted | controllers/DocumentController.js:297-301 | every document an upload adds has a MIME type the filter accepts |
| Controller.EntriesFollowUploads | controllers/DocumentController.js:390-407 | a batch whose uploads all failed still answers 200, with only error entries and no registry change |
| Controller.UploadResponseIgnoresPolicy | src/controllers/DocumentController.js:252-385 | the two controllers give the same entries and the same registry for the same request |
| Controller.Query | src/controllers/DocumentController.js:468-575 | a missing query or user id is a 400 before any call; the first call is the query's embedding; 200 exactly when synthesis was reached; 404 exactly when the validated, embedded query finds no rows; a failed query embedding is a 500 with the embedding error as details, after that one call |
| Controller.Retrieve | src/controllers/DocumentController.js:497-548 | the select follows the embedding; 200 exactly when a completion was requested; 404 exactly when the select returned no rows; a reported select error is a 500 "Database connection error. Please check Supabase configuration." and a thrown one a 500 "Unable to connect to database. Please check your Supabase configuration.", each with the error as details after exactly the embedding and the select |
| Controller.Synthesize | src/controllers/DocumentController.js:546-565 | synthesis always answers 200 with success; on failure the fixed fallback text and `error: "LLM generation failed"` |
| Controller.NoRowsIsNotFound | src/controllers/DocumentController.js:514-530 | an owner with no stored rows gets a 404 failure, never an empty successful answer |
| Controller.DatabaseFailureIsServerError | src/controllers/DocumentController.js:505-523 | a select error, reported or thrown, is a 500 with the error message as details and no completion call; the reported error gets the connection-error message and the thrown one the unable-to-connect message |
| Controller.SynthesisContext | src/controllers/DocumentController.js:535-548 | synthesis sees the texts of the best `limit` rows in rank order, joined by a blank line |
| Controller.DefaultLimitIsFive | src/controllers/DocumentController.js:470 | an omitted `limit` means five |
| ErrorHandler.LastFiring | src/middleware/errorHandler.js:20-70 | the reference reading finds a firing check, and finds none exactly when no check fires |
| ErrorHandler.ChainIsLastFiring | src/middleware/errorHandler.js:20-70 | running any list of checks in order leaves what the last firing check sets, or the copy when none fires |
| ErrorHandler.ClassifyIsChain | src/middleware/errorHandler.js:20-70 | the handler's nine checks are the rule list run in source order |
| ErrorHandler.ClassifyIsLastFiring | src/middleware/errorHandler.js:20-70 | the handler's classification equals the last-firing-rule reading on every error |
| ErrorHandler.LastFiringIsLatest | src/middleware/errorHandler.js:20-70 | a firing check with no firing check after it is the one that decides |
| ErrorHandler.LastFiringDecides | src/middleware/errorHandler.js:21-74 | the last firing check fixes the response's status and message, whatever fired before it |
| ErrorHandler.PlainErrorClassification | src/middleware/errorHandler.js:49-59 | without a code or a recognised name only the message tests matter, and "openai" beats "supabase" |
| ErrorHandler.HandleError | src/middleware/errorHandler.js:72-80 | the body always says failure with a non-zero status and a non-empty message, and holds the stack exactly in development when there is one |
| ErrorHandler.UnrecognisedPassesThrough | src/middleware/errorHandler.js:72-74 | an error no check recognises keeps its own status and message, with 500 and "Server Error" filling in what is missing |
| ErrorHandler.SupabaseOverridesNames | src/middleware/errorHandler.js:39-53 | a message containing "supabase" turns a named error into 500 "Database connection error", unless "openai" or a multer code follows |
| ErrorHandler.EmptyValidationIsServerError | src/middleware/errorHandler.js:33-36 | a validation error without messages answers 400 "Server Error" |
| ErrorHandler.CapitalisedSupabaseDoesNotFire | src/middleware/errorHandler.js:50 | the substring tests are case-sensitive: "Supabase down" does not fire |
| ErrorHandler.HandlePlainError | src/middleware/errorHandler.js:49-59 | a plain error's response is decided by "openai", then "supabase", then the error's own status and message |
| ErrorHandler.NotFoundError | src/middleware/notFoundHandler.js:4-7 | the 404 error has status 404, name `Error` and no code |
| ErrorHandler.NotFoundMessage | src/middleware/notFoundHandler.js:5 | the 404 message mentions a service exactly when the URL does |
| ErrorHandler.NotFoundResponse | src/middleware/notFoundHandler.js:4-7 | an unknown route answers 404 "Not Found - <url>" when the URL names neither service, and 500 otherwise |

## Left out

- PDF and DOCX parsing (`pdf-parse`, `mammoth`) are foreign libraries. Each is the reply it would give for the buffer.
- Network I/O is each call's reply. This covers Supabase storage and tables, `getPublicUrl`, and the OpenAI embedding and chat calls.
- The prompt wording of `generateLLMResponse` is not modelled. The completion is a reply, and the call records the query and the context.
- `convertToBuffer` dispatches on the runtime type of the download. The download's reply is already the buffer's text.
- UTF-8 decoding is not modelled. Buffers hold their text as `seq<char>`.
- IEEE-754 rounding, NaN and non-numeric vector entries are not modelled. Vector entries and scores are reals, and the sort comparator is the exact order on reals.
- Similarity.Cosine: `Math.sqrt` is a parameter. The bounds lemmas state at the call what they need of it.
- `Date.now`, `Math.random`, `new Date().toISOString()` and `uuidv4` are inputs: the file-name suffix, the ids and the upload date.
- `path.extname` is an input: the `ext` field of an incoming file.
- Multer's multipart parsing and its size and count limits are an input: the parse verdict. The limits themselves, including the environment-configured ones in `src/`, are not modelled. Multer runs `fileFilter` on every file before the handler, so an error-free verdict means every file passed it. `Controller.FilterPassed` states this, and `UploadFiles` requires it.
- Routing, express-validator, helmet, cors, rate limiting, authentication and logging are framework plumbing.
- Async sequencing is not modelled. The per-file loop is a sequential fold.
- Controller.Query: `limit` is a natural number. A negative or non-integer `limit` passed to `slice` is out of scope.
- The outer `catch` blocks that answer 500 in `uploadFiles`, `getPatientDocuments`, `downloadDocument` and `deleteDocument` are not modelled. No modelled step throws there.
- ErrorHandler.ErrorFields: `err.errors` is the list of its values' messages. A `statusCode` of 0 stands for an absent one, which `||` treats the same.
- Text.Lower: `toLowerCase` is modelled on ASCII letters only. No recognised extension has a non-ASCII character that lower-cases to ASCII, so the dispatch is unaffected.

=== FILE: controller.dfy ===
/** The two request handlers that talk to the outside world: `uploadFiles`
    (the per-file upload loop) and `getEmbeddingResponse` (validation,
    retrieval, ranking and synthesis). Both controllers share them; the only
    parameter that differs is the `IdPolicy` handed to ingestion. */
module Controller {
  import opened Model
  import opened Ranking
  import opened Registry
  import opened Ingestion

  // ---------------------------------------------------------------------------
  // Upload
  // ---------------------------------------------------------------------------

  /** What multer reported before the handler body ran: a `MulterError` with
      its code, or any other error (the `fileFilter` rejection among them). */
  datatype ParseFailure = MulterFailure(code: string, message: string) | OtherFailure(message: string)

  /** `errorMessages[err.code] || err.message`, or `err.message`. */
  function ParseFailureMessage(f: ParseFailure): (m: string)
    ensures f.MulterFailure? && f.code == "LIMIT_FILE_SIZE" ==> m == "File too large. Maximum size is 10MB."
    ensures f.MulterFailure? && f.code == "LIMIT_FILE_COUNT" ==> m == "Too many files. Maximum 5 files allowed."
    ensures f.OtherFailure? || (f.code != "LIMIT_FILE_SIZE" && f.code != "LIMIT_FILE_COUNT") ==> m == f.message
  {
    match f
    case MulterFailure(code, message) =>
      if code == "LIMIT_FILE_SIZE" then "File too large. Maximum size is 10MB."
      else if code == "LIMIT_FILE_COUNT" then "Too many files. Maximum 5 files allowed."
      else message
    case OtherFailure(message) => message
  }

  /** One uploaded file as multer hands it over; `ext` is
      `path.extname(originalname)`. */
  datatype IncomingFile = IncomingFile(originalName: string, size: nat, mimeType: string, ext: string)

  /** The world's replies for one file: the `Date.now()`/`Math.random()`
      suffix and ids, the ISO date, the storage upload outcome, the public
      URL, and what ingestion will meet. */
  datatype FileWorld = FileWorld(
    suffix: string,
    documentId: string,
    errorEntryId: string,
    uploadDate: string,
    upload: Attempt<()>,
    publicUrl: string,
    ingest: IngestEnv)

  datatype Incoming = Incoming(file: IncomingFile, world: FileWorld)

  function StoredFileName(suffix: string, ext: string): string {
    "documents-" + suffix + ext
  }

  /** `${FOLDER_NAME}/patient-${patientId}/${filename}`. */
  function StoragePath(patientId: string, fileName: string): string {
    FolderName + "/patient-" + patientId + "/" + fileName
  }

  /** The storage object a file is uploaded to. */
  function ObjectPath(patientId: string, f: Incoming): string {
    StoragePath(patientId, StoredFileName(f.world.suffix, f.file.ext))
  }

  /** The outcome of one iteration of the upload loop. */
  datatype FileOutcome = FileOutcome(entry: UploadEntry, added: seq<Document>, calls: seq<Call>)

  /** The calls ingestion makes for an uploaded object: the download of
      that object first, and no other storage upload or download. */
  function IngestCalls(policy: IdPolicy, patientId: string, path: string, f: Incoming): (rest: seq<Call>)
    ensures |rest| >= 1 && rest[0] == StorageDownload(BucketName, path)
    ensures forall i :: 0 <= i < |rest| ==> !rest[i].StorageUpload?
    ensures forall i :: 1 <= i < |rest| ==> !rest[i].StorageDownload?
    ensures forall i :: 0 <= i < |rest| && rest[i].InsertEmbedding? ==>
              && rest[i].record.userId == patientId
              && rest[i].record.documentId == StoredDocumentId(policy, f.world.documentId, f.world.ingest.freshId)
  {
    var ingest := ExtractAndStore(policy, f.world.documentId, patientId, BucketName, path, f.file.originalName,
                                  f.world.ingest);
    assert IngestTrace(ingest.calls, BucketName, path);
    ingest.calls
  }

  /** The calls of one iteration: the storage upload, then, when it
      succeeded, the ingestion of the uploaded object. */
  function FileCalls(policy: IdPolicy, patientId: string, f: Incoming): (calls: seq<Call>)
    ensures |calls| >= 1 && calls[0] == StorageUpload(BucketName, ObjectPath(patientId, f), f.file.mimeType)
    ensures forall i :: 1 <= i < |calls| ==> !calls[i].StorageUpload?
    ensures forall i :: 2 <= i < |calls| ==> !calls[i].StorageDownload?
    ensures f.world.upload.Err? <==> |calls| == 1
    ensures f.world.upload.Ok? ==> calls[1] == StorageDownload(BucketName, ObjectPath(patientId, f))
    ensures forall i :: 0 <= i < |calls| && calls[i].InsertEmbedding? ==>
              && calls[i].record.userId == patientId
              && calls[i].record.documentId == StoredDocumentId(policy, f.world.documentId, f.world.ingest.freshId)
  {
    var path := ObjectPath(patientId, f);
    var upload := StorageUpload(BucketName, path, f.file.mimeType);
    if f.world.upload.Err? then [upload]
    else [upload] + IngestCalls(policy, patientId, path, f)
  }

  /** One iteration: upload to storage; on failure an `error` entry and
      nothing else; on success a registry document, a `success` entry, and
      an ingestion whose failure is swallowed. */
  function UploadOne(policy: IdPolicy, patientId: string, f: Incoming): (r: FileOutcome)
    ensures r.entry.name == f.file.originalName && r.entry.size == f.file.size && r.entry.mimeType == f.file.mimeType
    ensures r.entry.status == EntrySuccess <==> f.world.upload.Ok?
    ensures r.entry.url.Some? <==> f.world.upload.Ok?
    ensures |r.calls| >= 1 && r.calls[0].StorageUpload? && r.calls[0].bucket == BucketName
    ensures f.world.upload.Err? ==> r.added == [] && |r.calls| == 1
    ensures f.world.upload.Ok? ==>
              (|r.added| == 1 && r.added[0].status == "uploaded"
               && r.added[0].patientId == patientId && r.added[0].id == r.entry.id
               && r.added[0].id == f.world.documentId && r.added[0].originalName == f.file.originalName
               && r.added[0].mimeType == f.file.mimeType)
    ensures f.world.upload.Ok? ==>
              && r.added[0].path == r.calls[0].path
              && |r.calls| >= 2 && r.calls[1] == StorageDownload(BucketName, r.calls[0].path)
    ensures f.world.upload.Ok? ==> r.entry.url == Some(f.world.publicUrl) && r.added[0].url == f.world.publicUrl
    ensures forall i :: 0 <= i < |r.calls| && r.calls[i].InsertEmbedding? ==>
              && r.calls[i].record.userId == patientId
              && r.calls[i].record.documentId == StoredDocumentId(policy, f.world.documentId, f.world.ingest.freshId)
  {
    var fileName := StoredFileName(f.world.suffix, f.file.ext);
    var path := StoragePath(patientId, fileName);
    var upload := StorageUpload(BucketName, path, f.file.mimeType);
    match f.world.upload
    case Err(_) =>
      FileOutcome(UploadEntry(f.world.errorEntryId, f.file.originalName, f.file.size, f.file.mimeType,
                              f.world.uploadDate, EntryError, None),
                  [], [upload])
    case Ok(_) =>
      var doc := Document(f.world.documentId, patientId, f.file.originalName, fileName, path,
                          f.world.publicUrl, f.file.size, f.file.mimeType, f.world.uploadDate, "uploaded");
      var ingest := ExtractAndStore(policy, doc.id, patientId, BucketName, path, doc.originalName, f.world.ingest);
      FileOutcome(UploadEntry(doc.id, doc.originalName, doc.size, doc.mimeType, doc.uploadDate,
                              EntrySuccess, Some(doc.url)),
                  [doc], [upload] + ingest.calls)
  }

    // ---------------------------------------------------------------------------
  // The storage calls of a batch
  // ---------------------------------------------------------------------------

  /** The two kinds of storage call a batch makes per file. */
  datatype StorageKind = UploadKind | DownloadKind

  predicate OfKind(c: Call, kind: StorageKind) {
    match kind
    case UploadKind => c.StorageUpload?
    case DownloadKind => c.StorageDownload?
  }

  /** The calls in `calls` of the given kind, in order. */
  function Kept(calls: seq<Call>, kind: StorageKind): (r: seq<Call>)
    ensures |r| <= |calls|
    ensures forall c :: c in r ==> c in calls && OfKind(c, kind)
  {
    if calls == [] then []
    else (if OfKind(calls[0], kind) then [calls[0]] else []) + Kept(calls[1..], kind)
  }

  lemma {:induction false} KeptAppend(a: seq<Call>, b: seq<Call>, kind: StorageKind)
    ensures Kept(a + b, kind) == Kept(a, kind) + Kept(b, kind)
  {
    if a == [] {
      assert a + b == b;
    } else {
      assert (a + b)[1..] == a[1..] + b;
      KeptAppend(a[1..], b, kind);
    }
  }

  lemma {:induction false} KeptNone(calls: seq<Call>, kind: StorageKind)
    requires forall i :: 0 <= i < |calls| ==> !OfKind(calls[i], kind)
    ensures Kept(calls, kind) == []
  {
    if calls != [] {
      KeptNone(calls[1..], kind);
    }
  }

  /** One storage upload per file, in file order. */
  function Uploads(patientId: string, files: seq<Incoming>): (u: seq<Call>)
    ensures |u| == |files|
  {
    seq(|files|, i requires 0 <= i < |files| => StorageUpload(BucketName, ObjectPath(patientId, files[i]), files[i].file.mimeType))
  }

  /** One download of its storage object per successfully uploaded file, in file order. */
  function Downloads(patientId: string, files: seq<Incoming>): (d: seq<Call>)
    ensures |d| == |Successful(files)|
  {
    var ok := Successful(files);
    seq(|ok|, k requires 0 <= k < |ok| => StorageDownload(BucketName, ObjectPath(patientId, ok[k])))
  }

  lemma UploadsSnoc(patientId: string, files: seq<Incoming>)
    requires files != []
    ensures var n := |files| - 1;
            Uploads(patientId, files)
            == Uploads(patientId, files[..n]) + [StorageUpload(BucketName, ObjectPath(patientId, files[n]), files[n].file.mimeType)]
  {
    var n := |files| - 1;
    var a, b := Uploads(patientId, files), Uploads(patientId, files[..n]);
    forall i | 0 <= i < n ensures a[i] == b[i] {
      assert files[..n][i] == files[i];
    }
  }

  lemma DownloadsSnoc(patientId: string, files: seq<Incoming>)
    requires files != []
    ensures var n := |files| - 1;
            Downloads(patientId, files)
            == Downloads(patientId, files[..n])
               + (if files[n].world.upload.Ok? then [StorageDownload(BucketName, ObjectPath(patientId, files[n]))] else [])
  {
    var n := |files| - 1;
    var okPrev := Successful(files[..n]);
    var ok := Successful(files);
    assert ok == okPrev + (if files[n].world.upload.Ok? then [files[n]] else []);
    var a, b := Downloads(patientId, files), Downloads(patientId, files[..n]);
    forall k | 0 <= k < |okPrev| ensures a[k] == b[k] {
      assert ok[k] == okPrev[k];
    }
  }

  /** One iteration makes exactly one storage upload, of its own object, and
      downloads that object exactly when the upload succeeded. */
  lemma FileCallsProjections(policy: IdPolicy, patientId: string, f: Incoming)
    ensures var calls := FileCalls(policy, patientId, f);
            && Kept(calls, UploadKind) == [StorageUpload(BucketName, ObjectPath(patientId, f), f.file.mimeType)]
            && Kept(calls, DownloadKind) == (if f.world.upload.Ok? then [StorageDownload(BucketName, ObjectPath(patientId, f))] else [])
  {
    var calls := FileCalls(policy, patientId, f);
    KeptNone(calls[1..], UploadKind);
    if f.world.upload.Ok? {
      assert calls[1..][1..] == calls[2..];
      KeptNone(calls[2..], DownloadKind);
    } else {
      KeptNone(calls[1..], DownloadKind);
    }
  }

/** The loop over `req.files`, as a sequential fold. */
  datatype Batch = Batch(entries: seq<UploadEntry>, added: seq<Document>, calls: seq<Call>)

  function UploadAll(policy: IdPolicy, patientId: string, files: seq<Incoming>): (b: Batch)
    ensures |b.entries| == |files|
    ensures forall i :: 0 <= i < |files| ==>
              b.entries[i].name == files[i].file.originalName
              && (b.entries[i].status == EntrySuccess <==> files[i].world.upload.Ok?)
    ensures |b.added| <= |files|
    ensures forall d :: d in b.added ==> d.patientId == patientId && d.status == "uploaded"
  {
    if files == [] then Batch([], [], [])
    else
      var n := |files| - 1;
      var prev := UploadAll(policy, patientId, files[..n]);
      var one := UploadOne(policy, patientId, files[n]);
      Batch(prev.entries + [one.entry], prev.added + one.added, prev.calls + one.calls)
  }

  /** The batch uploads every file once, in file order, each to its own object. */
  lemma {:induction false} BatchUploads(policy: IdPolicy, patientId: string, files: seq<Incoming>)
    ensures Kept(UploadAll(policy, patientId, files).calls, UploadKind) == Uploads(patientId, files)
  {
    if files != [] {
      var n := |files| - 1;
      var prev := UploadAll(policy, patientId, files[..n]);
      var one := UploadOne(policy, patientId, files[n]);
      assert UploadAll(policy, patientId, files).calls == prev.calls + one.calls;
      assert one.calls == FileCalls(policy, patientId, files[n]);
      BatchUploads(policy, patientId, files[..n]);
      KeptAppend(prev.calls, one.calls, UploadKind);
      FileCallsProjections(policy, patientId, files[n]);
      UploadsSnoc(patientId, files);
    }
  }

  /** The batch downloads the object of every successful upload, in file
      order, and nothing else. */
  lemma {:induction false} BatchDownloads(policy: IdPolicy, patientId: string, files: seq<Incoming>)
    ensures Kept(UploadAll(policy, patientId, files).calls, DownloadKind) == Downloads(patientId, files)
  {
    if files != [] {
      var n := |files| - 1;
      var prev := UploadAll(policy, patientId, files[..n]);
      var one := UploadOne(policy, patientId, files[n]);
      assert UploadAll(policy, patientId, files).calls == prev.calls + one.calls;
      assert one.calls == FileCalls(policy, patientId, files[n]);
      BatchDownloads(policy, patientId, files[..n]);
      KeptAppend(prev.calls, one.calls, DownloadKind);
      FileCallsProjections(policy, patientId, files[n]);
      DownloadsSnoc(patientId, files);
    }
  }

  /** Every embedding row inserted by `calls` belongs to `userId`. */
  predicate InsertsFor(calls: seq<Call>, userId: string) {
    forall i :: 0 <= i < |calls| && calls[i].InsertEmbedding? ==> calls[i].record.userId == userId
  }

  /** Every embedding row the batch inserts belongs to the patient. */
  lemma {:induction false} BatchInsertsForPatient(policy: IdPolicy, patientId: string, files: seq<Incoming>)
    ensures InsertsFor(UploadAll(policy, patientId, files).calls, patientId)
  {
    if files != [] {
      var n := |files| - 1;
      var prev := UploadAll(policy, patientId, files[..n]);
      var one := UploadOne(policy, patientId, files[n]);
      var calls := prev.calls + one.calls;
      assert UploadAll(policy, patientId, files).calls == calls;
      BatchInsertsForPatient(policy, patientId, files[..n]);
      assert InsertsFor(prev.calls, patientId);
      assert InsertsFor(one.calls, patientId);
      forall i | 0 <= i < |calls| && calls[i].InsertEmbedding? ensures calls[i].record.userId == patientId {
        if i < |prev.calls| {
          assert calls[i] == prev.calls[i];
        } else {
          assert calls[i] == one.calls[i - |prev.calls|];
        }
      }
    }
  }

  /** The registry grows by exactly the successfully stored files, in file
      order. */
  function Successful(files: seq<Incoming>): (r: seq<Incoming>)
    ensures |r| <= |files|
    ensures forall f :: f in r ==> f in files && f.world.upload.Ok?
    ensures forall i :: 0 <= i < |files| && files[i].world.upload.Ok? ==> files[i] in r
  {
    if files == [] then []
    else
      var n := |files| - 1;
      var prev := Successful(files[..n]);
      assert forall i :: 0 <= i < n ==> files[..n][i] == files[i];
      prev + (if files[n].world.upload.Ok? then [files[n]] else [])
  }

  /** The positions of the files whose storage upload succeeded, in
      increasing order. */
  function UploadedPositions(files: seq<Incoming>): (m: seq<nat>)
    ensures forall p :: 0 <= p < |m| ==> m[p] < |files| && files[m[p]].world.upload.Ok?
    ensures forall p, q :: 0 <= p < q < |m| ==> m[p] < m[q]
    ensures forall i :: 0 <= i < |files| && files[i].world.upload.Ok? ==> i in m
  {
    if files == [] then []
    else
      var n := |files| - 1;
      var prev := UploadedPositions(files[..n]);
      prev + (if files[n].world.upload.Ok? then [n] else [])
  }

  /** The successful files are exactly the files at the uploaded positions,
      in file order. */
  lemma {:induction false} SuccessfulInOrder(files: seq<Incoming>)
    ensures var m := UploadedPositions(files);
            Successful(files) == seq(|m|, p requires 0 <= p < |m| => files[m[p]])
  {
    if files != [] {
      var n := |files| - 1;
      SuccessfulInOrder(files[..n]);
    }
  }

  lemma {:induction false} AddedAreTheSuccessful(policy: IdPolicy, patientId: string, files: seq<Incoming>)
    ensures var b := UploadAll(policy, patientId, files);
            var ok := Successful(files);
            && |b.added| == |ok|
            && forall k :: 0 <= k < |ok| ==>
                 b.added[k].originalName == ok[k].file.originalName && b.added[k].id == ok[k].world.documentId
                 && b.added[k].mimeType == ok[k].file.mimeType && b.added[k].url == ok[k].world.publicUrl
  {
    if files != [] {
      var n := |files| - 1;
      var prev := UploadAll(policy, patientId, files[..n]);
      var one := UploadOne(policy, patientId, files[n]);
      AddedAreTheSuccessful(policy, patientId, files[..n]);
      var okPrev := Successful(files[..n]);
      var added := prev.added + one.added;
      assert UploadAll(policy, patientId, files).added == added;
      if files[n].world.upload.Ok? {
        var ok := okPrev + [files[n]];
        assert Successful(files) == ok;
        forall k | 0 <= k < |ok|
          ensures added[k].originalName == ok[k].file.originalName && added[k].id == ok[k].world.documentId
                  && added[k].mimeType == ok[k].file.mimeType && added[k].url == ok[k].world.publicUrl
        {
          if k < |okPrev| {
            assert added[k] == prev.added[k] && ok[k] == okPrev[k];
          } else {
            assert added[k] == one.added[0] && ok[k] == files[n];
          }
        }
      } else {
        assert Successful(files) == okPrev + [];
        assert one.added == [] && added == prev.added && okPrev + [] == okPrev;
      }
    }
  }

  /** What multer promises the handler: when it reports no error, every file
      passed the `fileFilter`. */
  predicate FilterPassed(parse: Option<ParseFailure>, files: seq<Incoming>) {
    parse.None? ==> forall i :: 0 <= i < |files| ==> FileFilter(files[i].file.mimeType).Accept?
  }

  /** `uploadFiles`: multer's verdict, then the two request checks, then the
      loop; the response is 200 whatever happened to the individual files. */
  function UploadFiles(policy: IdPolicy, docs: seq<Document>, parse: Option<ParseFailure>,
                       patientId: string, files: seq<Incoming>): (h: Handled)
    requires FilterPassed(parse, files)
    ensures parse.Some? ==> h == Handled(Json(400, Failure(ParseFailureMessage(parse.value))), docs, [])
    ensures parse.None? && files == [] ==> h == Handled(Json(400, Failure("No files uploaded.")), docs, [])
    ensures parse.None? && files != [] && patientId == "" ==> h == Handled(Json(400, Failure("Patient ID is required.")), docs, [])
    ensures parse.None? && files != [] && patientId != "" ==>
              && h.response.Json? && h.response.status == 200
              && h.response.body.Uploaded? && h.response.body.message == "Files uploaded successfully."
              && |h.response.body.entries| == |files|
              && (forall i :: 0 <= i < |files| ==>
                    h.response.body.entries[i].name == files[i].file.originalName
                    && (h.response.body.entries[i].status == EntrySuccess <==> files[i].world.upload.Ok?))
              && |docs| <= |h.documents| <= |docs| + |files|
              && h.documents[..|docs|] == docs
              && |h.documents| == |docs| + |Successful(files)|
              && (forall k :: 0 <= k < |Successful(files)| ==>
                    var d, f := h.documents[|docs| + k], Successful(files)[k];
                    d.id == f.world.documentId && d.originalName == f.file.originalName && d.url == f.world.publicUrl)
              && Kept(h.calls, UploadKind) == Uploads(patientId, files)
              && Kept(h.calls, DownloadKind) == Downloads(patientId, files)
              && InsertsFor(h.calls, patientId)
  {
    if parse.Some? then Handled(Json(400, Failure(ParseFailureMessage(parse.value))), docs, [])
    else if files == [] then Handled(Json(400, Failure("No files uploaded.")), docs, [])
    else if patientId == "" then Handled(Json(400, Failure("Patient ID is required.")), docs, [])
    else
      var b := UploadAll(policy, patientId, files);
      assert (docs + b.added)[..|docs|] == docs;
      AddedAreTheSuccessful(policy, patientId, files);
      BatchUploads(policy, patientId, files);
      BatchDownloads(policy, patientId, files);
      BatchInsertsForPatient(policy, patientId, files);
      Handled(Json(200, Uploaded("Files uploaded successfully.", b.entries)), docs + b.added, b.calls)
  }

  /** A request holding a file the filter rejects is a 400, before any
      storage call or registry change; when the rejection is what multer
      reports, the message is the filter's. */
  lemma RejectedTypeAbortsUpload(policy: IdPolicy, docs: seq<Document>, parse: Option<ParseFailure>,
                                 patientId: string, files: seq<Incoming>, i: nat)
    requires FilterPassed(parse, files)
    requires i < |files| && FileFilter(files[i].file.mimeType).Reject?
    ensures var h := UploadFiles(policy, docs, parse, patientId, files);
            && h.response.Json? && h.response.status == 400
            && h.documents == docs && h.calls == []
    ensures parse == Some(OtherFailure(FileFilter(files[i].file.mimeType).error)) ==>
              UploadFiles(policy, docs, parse, patientId, files).response == Json(400, Failure(InvalidTypeMessage))
  {
  }

  /** Every document an upload adds has a MIME type the filter accepts. */
  lemma StoredTypesAreAccepted(policy: IdPolicy, docs: seq<Document>, parse: Option<ParseFailure>,
                               patientId: string, files: seq<Incoming>)
    requires FilterPassed(parse, files)
    ensures var h := UploadFiles(policy, docs, parse, patientId, files);
            forall k :: |docs| <= k < |h.documents| ==> FileFilter(h.documents[k].mimeType).Accept?
  {
    if parse.None? && files != [] && patientId != "" {
      var b := UploadAll(policy, patientId, files);
      var ok := Successful(files);
      AddedAreTheSuccessful(policy, patientId, files);
      forall k | 0 <= k < |b.added| ensures FileFilter(b.added[k].mimeType).Accept? {
        assert ok[k] in ok;
      }
    }
  }

  /** A batch whose uploads all failed still answers 200, with only error
      entries and no registry change. */
  lemma EntriesFollowUploads(policy: IdPolicy, docs: seq<Document>, patientId: string, files: seq<Incoming>)
    requires patientId != "" && files != [] && FilterPassed(None, files)
    requires forall i :: 0 <= i < |files| ==> files[i].world.upload.Err?
    ensures var h := UploadFiles(policy, docs, None, patientId, files);
            && h.response == Json(200, Uploaded("Files uploaded successfully.", h.response.body.entries))
            && (forall i :: 0 <= i < |files| ==> h.response.body.entries[i].status == EntryError)
            && h.documents == docs
  {
    NoneSuccessful(files);
    AddedAreTheSuccessful(policy, patientId, files);
  }

  lemma {:induction false} NoneSuccessful(files: seq<Incoming>)
    requires forall i :: 0 <= i < |files| ==> files[i].world.upload.Err?
    ensures Successful(files) == []
  {
    if files != [] {
      NoneSuccessful(files[..|files| - 1]);
    }
  }

  /** The two controllers give the same response and the same registry for
      the same request; they differ only in the rows they insert. Document ids
      are never empty: they start with the digits of `Date.now()`. */
  lemma {:induction false} UploadResponseIgnoresPolicy(patientId: string, files: seq<Incoming>)
    requires forall i :: 0 <= i < |files| ==> files[i].world.documentId != ""
    ensures var a := UploadAll(RootControllerPolicy, patientId, files);
            var b := UploadAll(SrcControllerPolicy, patientId, files);
            a.entries == b.entries && a.added == b.added && |a.calls| == |b.calls|
  {
    if files != [] {
      var n := |files| - 1;
      UploadResponseIgnoresPolicy(patientId, files[..n]);
      var f := files[n];
      if f.world.upload.Ok? {
        var fileName := StoredFileName(f.world.suffix, f.file.ext);
        var path := StoragePath(patientId, fileName);
        PoliciesDifferOnlyInDocumentId(f.world.documentId, patientId, BucketName, path, f.file.originalName, f.world.ingest);
      }
    }
  }

  // ---------------------------------------------------------------------------
  // Query
  // ---------------------------------------------------------------------------

  /** The select on `document_embeddings`: the rows (`data`, possibly null),
      an `error` in the reply, or a thrown exception. */
  datatype SelectReply = Rows(data: Option<seq<StoredRow>>) | Refused(error: string) | Unreachable(error: string)

  /** The world's replies for one query; `sqrt` stands for `Math.sqrt`. */
  datatype QueryEnv = QueryEnv(embed: Attempt<Embedding>, select: SelectReply, complete: Attempt<string>, sqrt: real -> real)

  datatype Answer = Answer(response: Response, calls: seq<Call>)

  const DefaultLimit: nat := 5
  const FallbackResponse := "Unable to generate AI response. Please try again later."
  const NoEmbeddingsMessage := "No document embeddings found for this user. Please upload some documents first."
  /** The 500 message for a select that reported an error. */
  const RefusedMessage := "Database connection error. Please check Supabase configuration."
  /** The 500 message for a select that threw. */
  const UnreachableMessage := "Unable to connect to database. Please check your Supabase configuration."

  /** `getEmbeddingResponse`. `limit` is `None` when the body omits it. */
  function Query(query: string, userId: string, limit: Option<nat>, env: QueryEnv): (a: Answer)
    ensures query == "" ==> a == Answer(Json(400, Failure("Query is required.")), [])
    ensures query != "" && userId == "" ==> a == Answer(Json(400, Failure("User ID is required.")), [])
    ensures a.calls != [] ==> query != "" && userId != "" && a.calls[0] == Embed(query)
    ensures |a.calls| <= 3
    ensures a.response.Json? && (a.response.status == 200 <==> |a.calls| == 3)
    ensures a.response.status == 404 <==> a.response == Json(404, Failure(NoEmbeddingsMessage))
    ensures a.response.status == 404 <==>
              && query != "" && userId != "" && env.embed.Ok? && env.select.Rows?
              && (env.select.data.None? || env.select.data.value == [])
    ensures a.response.status == 500 ==> a.response.body.FailureWithDetails?
    ensures query != "" && userId != "" && env.embed.Err? ==>
              a == Answer(Json(500, FailureWithDetails("Internal server error while processing embedding query.",
                                                       env.embed.message)), [Embed(query)])
  {
    if query == "" then Answer(Json(400, Failure("Query is required.")), [])
    else if userId == "" then Answer(Json(400, Failure("User ID is required.")), [])
    else
      match env.embed
      case Err(m) => Answer(Json(500, FailureWithDetails("Internal server error while processing embedding query.", m)), [Embed(query)])
      case Ok(queryVector) =>
        var k := if limit.Some? then limit.value else DefaultLimit;
        Retrieve(query, userId, queryVector, k, env)
  }

  /** The query once the query vector is known: select the user's rows, rank
      them, and ask for a completion over the best ones. */
  function Retrieve(query: string, userId: string, queryVector: Embedding, limit: nat, env: QueryEnv): (a: Answer)
    ensures 2 <= |a.calls| <= 3 && a.calls[0] == Embed(query) && a.calls[1] == SelectEmbeddings(EmbeddingsTable, userId)
    ensures a.response.Json? && (a.response.status == 200 <==> |a.calls| == 3)
    ensures a.response.status == 404 <==> a.response == Json(404, Failure(NoEmbeddingsMessage))
    ensures a.response.status == 404 <==> env.select.Rows? && (env.select.data.None? || env.select.data.value == [])
    ensures a.response.status == 500 ==> a.response.body.FailureWithDetails?
    ensures env.select.Refused? ==>
              a == Answer(Json(500, FailureWithDetails(RefusedMessage, env.select.error)),
                          [Embed(query), SelectEmbeddings(EmbeddingsTable, userId)])
    ensures env.select.Unreachable? ==>
              a == Answer(Json(500, FailureWithDetails(UnreachableMessage, env.select.error)),
                          [Embed(query), SelectEmbeddings(EmbeddingsTable, userId)])
  {
    var calls := [Embed(query), SelectEmbeddings(EmbeddingsTable, userId)];
    match env.select
    case Refused(m) => Answer(Json(500, FailureWithDetails(RefusedMessage, m)), calls)
    case Unreachable(m) => Answer(Json(500, FailureWithDetails(UnreachableMessage, m)), calls)
    case Rows(data) =>
      var rows := if data.Some? then data.value else [];
      if rows == [] then Answer(Json(404, Failure(NoEmbeddingsMessage)), calls)
      else
        var context := Context(TopRows(queryVector, rows, limit, env.sqrt));
        Synthesize(calls, query, context, env.complete)
  }

  /** The completion step: its text, or the fixed fallback when it fails;
      either way a 200. */
  function Synthesize(calls: seq<Call>, query: string, context: string, complete: Attempt<string>): (a: Answer)
    ensures a.calls == calls + [Complete(query, context)]
    ensures a.response.Json? && a.response.status == 200 && a.response.body.Answered?
    ensures complete.Ok? <==> a.response.body.error.None?
    ensures complete.Ok? ==> a.response.body.response == complete.value
    ensures complete.Err? ==> a.response.body == Answered(FallbackResponse, Some("LLM generation failed"))
  {
    match complete
    case Ok(text) => Answer(Json(200, Answered(text, None)), calls + [Complete(query, context)])
    case Err(_) => Answer(Json(200, Answered(FallbackResponse, Some("LLM generation failed"))), calls + [Complete(query, context)])
  }

  /** A user with no stored rows gets a 404 failure, never an empty answer. */
  lemma NoRowsIsNotFound(query: string, userId: string, limit: Option<nat>, env: QueryEnv)
    requires query != "" && userId != "" && env.embed.Ok?
    requires env.select == Rows(None) || env.select == Rows(Some([]))
    ensures var a := Query(query, userId, limit, env);
            a.response == Json(404, Failure(NoEmbeddingsMessage)) && !a.response.body.Success()
  {
  }

  /** A select that reports an error, or throws, answers 500 with the error's
      message as details, after the embedding and the select and before any
      completion. */
  lemma DatabaseFailureIsServerError(query: string, userId: string, limit: Option<nat>, env: QueryEnv)
    requires query != "" && userId != "" && env.embed.Ok?
    requires !env.select.Rows?
    ensures var a := Query(query, userId, limit, env);
            && a.calls == [Embed(query), SelectEmbeddings(EmbeddingsTable, userId)]
            && a.response.Json? && a.response.status == 500
            && a.response.body.FailureWithDetails? && a.response.body.details == env.select.error
            && a.response.body.message == (if env.select.Refused? then RefusedMessage else UnreachableMessage)
  {
    var k := if limit.Some? then limit.value else DefaultLimit;
    assert Query(query, userId, limit, env) == Retrieve(query, userId, env.embed.value, k, env);
  }

  /** With rows available, synthesis sees the best `limit` rows' texts, best
      first, joined by a blank line; a synthesis failure still answers 200 with
      the fixed fallback. */
  lemma SynthesisContext(query: string, userId: string, limit: nat, env: QueryEnv)
    requires query != "" && userId != "" && env.embed.Ok?
    requires env.select.Rows? && env.select.data.Some? && env.select.data.value != []
    ensures var rows := env.select.data.value;
            var top := TopRows(env.embed.value, rows, limit, env.sqrt);
            var a := Query(query, userId, Some(limit), env);
            && a.calls == [Embed(query), SelectEmbeddings(EmbeddingsTable, userId), Complete(query, Context(top))]
            && |top| == Min(limit, |rows|)
            && (env.complete.Err? ==> a.response == Json(200, Answered(FallbackResponse, Some("LLM generation failed"))))
            && (env.complete.Ok? ==> a.response == Json(200, Answered(env.complete.value, None)))
  {
  }

  /** Omitting `limit` means five. */
  lemma DefaultLimitIsFive(query: string, userId: string, env: QueryEnv)
    ensures Query(query, userId, None, env) == Query(query, userId, Some(5), env)
  {
  }
}

=== FILE: error_handler.dfy ===
/** The application-wide error middleware (`errorHandler`) and the error the
    404 middleware (`notFoundHandler`) hands to it. An error is first copied,
    then a chain of independent checks may each replace the copy with a fixed
    message and status; the last check that fires decides. Missing status and
    message fall back to 500 and "Server Error". */
module ErrorHandler {
  import opened Model
  import opened Text

  /** The `code` property of an error: absent, a number (a duplicate-key code)
      or a string (a multer code). */
  datatype Code = NoCode | NumCode(n: int) | TextCode(s: string)

  /** The properties of a thrown error the handler reads. `statusCode` 0
      stands for an absent or zero `statusCode`; `errors` holds the messages of
      the values of `err.errors`, in order; `stack` is `None` when the error has
      no stack. */
  datatype ErrorFields = ErrorFields(
    name: string,
    code: Code,
    message: string,
    statusCode: nat,
    errors: seq<string>,
    stack: Option<string>)

  /** The handler's working copy `error`: a message and a status. */
  datatype ErrorState = ErrorState(message: string, statusCode: nat)

  /** `let error = { ...err }; error.message = err.message;` */
  function Initial(e: ErrorFields): ErrorState {
    ErrorState(e.message, e.statusCode)
  }

  /** The checks, in the order the handler makes them. */
  datatype Rule =
    | CastRule | DuplicateKeyRule | ValidationRule | InvalidTokenRule | ExpiredTokenRule
    | SupabaseRule | OpenAiRule | FileSizeRule | FileCountRule

  const Rules: seq<Rule> := [CastRule, DuplicateKeyRule, ValidationRule, InvalidTokenRule, ExpiredTokenRule,
                             SupabaseRule, OpenAiRule, FileSizeRule, FileCountRule]

  /** When a check fires; the message tests are case-sensitive. */
  predicate Fires(r: Rule, e: ErrorFields) {
    match r
    case CastRule => e.name == "CastError"
    case DuplicateKeyRule => e.code == NumCode(11000)
    case ValidationRule => e.name == "ValidationError"
    case InvalidTokenRule => e.name == "JsonWebTokenError"
    case ExpiredTokenRule => e.name == "TokenExpiredError"
    case SupabaseRule => e.message != "" && Contains(e.message, "supabase")
    case OpenAiRule => e.message != "" && Contains(e.message, "openai")
    case FileSizeRule => e.code == TextCode("LIMIT_FILE_SIZE")
    case FileCountRule => e.code == TextCode("LIMIT_FILE_COUNT")
  }

  /** What a firing check puts in place of the working copy. */
  function Outcome(r: Rule, e: ErrorFields): ErrorState {
    match r
    case CastRule => ErrorState("Resource not found", 404)
    case DuplicateKeyRule => ErrorState("Duplicate field value entered", 400)
    case ValidationRule => ErrorState(Join(e.errors, ", "), 400)
    case InvalidTokenRule => ErrorState("Invalid token", 401)
    case ExpiredTokenRule => ErrorState("Token expired", 401)
    case SupabaseRule => ErrorState("Database connection error", 500)
    case OpenAiRule => ErrorState("AI service error", 500)
    case FileSizeRule => ErrorState("File too large", 400)
    case FileCountRule => ErrorState("Too many files", 400)
  }

  /** One `if (...) { error = {...} }` of the chain. */
  function Check(r: Rule, e: ErrorFields, cur: ErrorState): ErrorState {
    if Fires(r, e) then Outcome(r, e) else cur
  }

  /** The chain of checks as the handler runs it, each one seeing the copy the
      previous ones left. */
  function Classify(e: ErrorFields): ErrorState {
    var s1 := Check(CastRule, e, Initial(e));
    var s2 := Check(DuplicateKeyRule, e, s1);
    var s3 := Check(ValidationRule, e, s2);
    var s4 := Check(InvalidTokenRule, e, s3);
    var s5 := Check(ExpiredTokenRule, e, s4);
    var s6 := Check(SupabaseRule, e, s5);
    var s7 := Check(OpenAiRule, e, s6);
    var s8 := Check(FileSizeRule, e, s7);
    Check(FileCountRule, e, s8)
  }

  /** The last rule of `rules` that fires, if any. */
  function LastFiring(rules: seq<Rule>, e: ErrorFields): (r: Option<Rule>)
    ensures r.Some? ==> r.value in rules && Fires(r.value, e)
    ensures r.None? <==> forall k :: 0 <= k < |rules| ==> !Fires(rules[k], e)
  {
    if rules == [] then None
    else
      var n := |rules| - 1;
      if Fires(rules[n], e) then Some(rules[n])
      else
        var prev := LastFiring(rules[..n], e);
        assert forall k :: 0 <= k < n ==> rules[..n][k] == rules[k];
        prev
  }

  /** The reference reading of the chain: the copy survives when no check
      fires, and otherwise the last check that fires decides alone. */
  function ByLastFiring(rules: seq<Rule>, e: ErrorFields, cur: ErrorState): ErrorState {
    match LastFiring(rules, e)
    case None => cur
    case Some(r) => Outcome(r, e)
  }

  /** Running the checks of `rules` in order, starting from `cur`. */
  function Chain(rules: seq<Rule>, e: ErrorFields, cur: ErrorState): ErrorState {
    if rules == [] then cur
    else Check(rules[|rules| - 1], e, Chain(rules[..|rules| - 1], e, cur))
  }

  /** Running any list of checks in order leaves what the last firing check
      sets, or the starting copy when none fires. */
  lemma {:induction false} ChainIsLastFiring(rules: seq<Rule>, e: ErrorFields, cur: ErrorState)
    ensures Chain(rules, e, cur) == ByLastFiring(rules, e, cur)
  {
    if rules != [] {
      ChainIsLastFiring(rules[..|rules| - 1], e, cur);
    }
  }

  /** The handler's chain is the check list run in order. */
  lemma ClassifyIsChain(e: ErrorFields)
    ensures Classify(e) == Chain(Rules, e, Initial(e))
  {
    var r0 := Initial(e);
    var r1: seq<Rule> := [CastRule];
    var r2 := r1 + [DuplicateKeyRule];
    var r3 := r2 + [ValidationRule];
    var r4 := r3 + [InvalidTokenRule];
    var r5 := r4 + [ExpiredTokenRule];
    var r6 := r5 + [SupabaseRule];
    var r7 := r6 + [OpenAiRule];
    var r8 := r7 + [FileSizeRule];
    assert Rules == r8 + [FileCountRule];
    assert (r8 + [FileCountRule])[..8] == r8;
    assert r8[..7] == r7;
    assert r7[..6] == r6;
    assert r6[..5] == r5;
    assert r5[..4] == r4;
    assert r4[..3] == r3;
    assert r3[..2] == r2;
    assert r2[..1] == r1;
    assert r1[..0] == [];
    assert Chain(r1, e, r0) == Check(CastRule, e, r0);
    assert Chain(r2, e, r0) == Check(DuplicateKeyRule, e, Chain(r1, e, r0));
    assert Chain(r3, e, r0) == Check(ValidationRule, e, Chain(r2, e, r0));
    assert Chain(r4, e, r0) == Check(InvalidTokenRule, e, Chain(r3, e, r0));
    assert Chain(r5, e, r0) == Check(ExpiredTokenRule, e, Chain(r4, e, r0));
    assert Chain(r6, e, r0) == Check(SupabaseRule, e, Chain(r5, e, r0));
    assert Chain(r7, e, r0) == Check(OpenAiRule, e, Chain(r6, e, r0));
    assert Chain(r8, e, r0) == Check(FileSizeRule, e, Chain(r7, e, r0));
  }

  /** The chain of checks and the reference reading agree on every error. */
  lemma ClassifyIsLastFiring(e: ErrorFields)
    ensures Classify(e) == ByLastFiring(Rules, e, Initial(e))
  {
    ClassifyIsChain(e);
    ChainIsLastFiring(Rules, e, Initial(e));
  }

  /** A firing rule with no firing rule after it is the one `LastFiring`
      finds. */
  lemma {:induction false} LastFiringIsLatest(rules: seq<Rule>, e: ErrorFields, k: nat)
    requires k < |rules| && Fires(rules[k], e)
    requires forall j :: k < j < |rules| ==> !Fires(rules[j], e)
    ensures LastFiring(rules, e) == Some(rules[k])
  {
    var n := |rules| - 1;
    if k < n {
      var p := rules[..n];
      forall j | k < j < |p| ensures !Fires(p[j], e) {
        assert p[j] == rules[j];
      }
      LastFiringIsLatest(p, e, k);
    }
  }

  /** Later checks override earlier ones: the last check that fires fixes the
      response's status and message (with "Server Error" for an empty joined
      validation message), whatever fired before it. */
  lemma LastFiringDecides(e: ErrorFields, nodeEnv: string, k: nat)
    requires k < |Rules| && Fires(Rules[k], e)
    requires forall j :: k < j < |Rules| ==> !Fires(Rules[j], e)
    ensures var o := Outcome(Rules[k], e);
            var r := HandleError(e, nodeEnv);
            && o.statusCode != 0
            && r.status == o.statusCode
            && r.body.message == (if o.message == "" then "Server Error" else o.message)
  {
    ClassifyIsLastFiring(e);
    LastFiringIsLatest(Rules, e, k);
  }

  /** For an error with none of the recognised names and no code, only the
      message tests matter, and "openai" beats "supabase". */
  lemma PlainErrorClassification(e: ErrorFields)
    requires e.code == NoCode
    requires e.name != "CastError" && e.name != "ValidationError"
    requires e.name != "JsonWebTokenError" && e.name != "TokenExpiredError"
    ensures Classify(e) == if Fires(OpenAiRule, e) then ErrorState("AI service error", 500)
                           else if Fires(SupabaseRule, e) then ErrorState("Database connection error", 500)
                           else Initial(e)
  {
  }

  /** `errorHandler(err, req, res, next)` with `process.env.NODE_ENV` as
      `nodeEnv`: the status and message after the checks, with their
      defaults; the stack only in development. */
  function HandleError(e: ErrorFields, nodeEnv: string): (r: Response)
    ensures r.Json? && !r.body.Success()
    ensures r.status != 0 && r.body.message != ""
    ensures r.body.FailureWithStack? <==> nodeEnv == "development" && e.stack.Some?
    ensures r.body.FailureWithStack? ==> r.body.stack == e.stack.value
  {
    var s := Classify(e);
    var status := if s.statusCode == 0 then 500 else s.statusCode;
    var message := if s.message == "" then "Server Error" else s.message;
    if nodeEnv == "development" && e.stack.Some? then Json(status, FailureWithStack(message, e.stack.value))
    else Json(status, Failure(message))
  }

  /** An error no check recognises keeps its own status and message, with the
      defaults filling in what is missing. */
  lemma UnrecognisedPassesThrough(e: ErrorFields, nodeEnv: string)
    requires forall k :: 0 <= k < |Rules| ==> !Fires(Rules[k], e)
    ensures var r := HandleError(e, nodeEnv);
            && r.status == (if e.statusCode == 0 then 500 else e.statusCode)
            && r.body.message == (if e.message == "" then "Server Error" else e.message)
  {
    ClassifyIsLastFiring(e);
  }

  /** A message that mentions "supabase" turns any named error (an expired
      token, a validation error, ...) into a 500, unless it also mentions
      "openai" or carries a multer code. */
  lemma SupabaseOverridesNames(e: ErrorFields, nodeEnv: string)
    requires Contains(e.message, "supabase") && !Contains(e.message, "openai")
    requires e.code != TextCode("LIMIT_FILE_SIZE") && e.code != TextCode("LIMIT_FILE_COUNT")
    ensures HandleError(e, nodeEnv).status == 500
    ensures HandleError(e, nodeEnv).body.message == "Database connection error"
  {
    ContainsIsNoLonger(e.message, "supabase");
  }

  /** A validation error without any messages yields an empty joined message,
      which the default turns into "Server Error" with status 400. */
  lemma EmptyValidationIsServerError(e: ErrorFields, nodeEnv: string)
    requires e.name == "ValidationError" && e.errors == []
    requires !Contains(e.message, "supabase") && !Contains(e.message, "openai")
    requires !e.code.TextCode?
    ensures HandleError(e, nodeEnv).status == 400
    ensures HandleError(e, nodeEnv).body.message == "Server Error"
  {
  }

  /** The message tests are case-sensitive: "Supabase" alone does not fire. */
  lemma CapitalisedSupabaseDoesNotFire(e: ErrorFields)
    requires e.message == "Supabase down"
    ensures !Fires(SupabaseRule, e)
  {
    var s := e.message;
    forall i | 0 <= i <= |s| ensures !StartsWith(s[i..], "supabase") {
      if i < 6 {
        assert i == 0 || i == 1 || i == 2 || i == 3 || i == 4 || i == 5;
        assert s[i] != 's';
        assert s[i..][0] == s[i];
      }
      NoStartHere(s[i..], "supabase");
    }
    NotContainedInShorter(s, "supabase");
  }

  /** An occurrence is never longer than the text it occurs in. */
  lemma {:induction false} ContainsIsNoLonger(s: string, t: string)
    requires Contains(s, t)
    ensures |t| <= |s|
  {
    if !StartsWith(s, t) {
      ContainsIsNoLonger(s[1..], t);
    }
  }

  /** A text does not start with `t` when it is too short or its first two
      characters already differ from `t`'s. */
  lemma NoStartHere(x: string, t: string)
    requires |t| >= 2
    requires |x| < |t| || x[0] != t[0] || x[1] != t[1]
    ensures !StartsWith(x, t)
  {
    if |x| >= |t| {
      assert x[..|t|][0] == x[0] && x[..|t|][1] == x[1];
    }
  }

  /** `s` has no occurrence of `t` when none of its suffixes starts with it. */
  lemma {:induction false} NotContainedInShorter(s: string, t: string)
    requires forall i :: 0 <= i <= |s| ==> !StartsWith(s[i..], t)
    ensures !Contains(s, t)
  {
    assert s[0..] == s;
    if s != [] {
      forall i | 0 <= i <= |s[1..]| ensures !StartsWith(s[1..][i..], t) {
        assert s[1..][i..] == s[i + 1..];
      }
      NotContainedInShorter(s[1..], t);
    }
  }

  // ---------------------------------------------------------------------------
  // The 404 middleware
  // ---------------------------------------------------------------------------

  /** `notFoundHandler`: an `Error` whose message names the requested URL,
      with status 404, passed on to `errorHandler`. */
  function NotFoundError(originalUrl: string, stack: Option<string>): (e: ErrorFields)
    ensures e.statusCode == 404 && e.name == "Error" && e.code == NoCode
  {
    ErrorFields("Error", NoCode, "Not Found - " + originalUrl, 404, [], stack)
  }

  /** Prepending text that holds no occurrence of `t`, even across the seam,
      does not change whether `t` occurs. */
  lemma {:induction false} ContainsAfterPrefix(p: string, s: string, t: string)
    requires forall i :: 0 <= i < |p| ==> !StartsWith((p + s)[i..], t)
    ensures Contains(p + s, t) <==> Contains(s, t)
  {
    if p != [] {
      assert (p + s)[0..] == p + s;
      assert (p + s)[1..] == p[1..] + s;
      forall i | 0 <= i < |p[1..]| ensures !StartsWith((p[1..] + s)[i..], t) {
        assert (p[1..] + s)[i..] == (p + s)[i + 1..];
      }
      ContainsAfterPrefix(p[1..], s, t);
    } else {
      assert p + s == s;
    }
  }

  /** No occurrence of "supabase" or "openai" starts inside "Not Found - ". */
  lemma NotFoundPrefixIsClean(p: string, s: string, t: string)
    requires p == "Not Found - "
    requires t == "supabase" || t == "openai"
    ensures forall i :: 0 <= i < |p| ==> !StartsWith((p + s)[i..], t)
  {
    forall i | 0 <= i < |p| ensures !StartsWith((p + s)[i..], t) {
      var x := (p + s)[i..];
      assert x[0] == p[i];
      assert i == 0 || i == 1 || i == 2 || i == 3 || i == 4 || i == 5 || i == 6 || i == 7
          || i == 8 || i == 9 || i == 10 || i == 11;
      if i < 11 {
        assert x[1] == p[i + 1];
      }
      NoStartHere(x, t);
    }
  }

  /** An unknown route answers 404 with "Not Found - <url>" exactly when the
      URL mentions neither "supabase" nor "openai"; a URL that mentions
      "supabase" (and not "openai") answers 500 "Database connection error". */
  lemma NotFoundResponse(url: string, stack: Option<string>, nodeEnv: string)
    ensures var r := HandleError(NotFoundError(url, stack), nodeEnv);
            && (!Contains(url, "supabase") && !Contains(url, "openai") ==>
                  r.status == 404 && r.body.message == "Not Found - " + url)
            && (Contains(url, "supabase") && !Contains(url, "openai") ==>
                  r.status == 500 && r.body.message == "Database connection error")
            && (Contains(url, "openai") ==> r.status == 500 && r.body.message == "AI service error")
  {
    var e := NotFoundError(url, stack);
    NotFoundMessage(e.message, url);
    HandlePlainError(e, nodeEnv);
  }

  /** The response to an error without a code or a recognised name: the
      service mentioned in the message decides, "openai" first, and otherwise
      the error's own status and message are sent. */
  lemma HandlePlainError(e: ErrorFields, nodeEnv: string)
    requires e.code == NoCode
    requires e.name != "CastError" && e.name != "ValidationError"
    requires e.name != "JsonWebTokenError" && e.name != "TokenExpiredError"
    requires e.message != "" && e.statusCode != 0
    ensures var r := HandleError(e, nodeEnv);
            && (!Contains(e.message, "supabase") && !Contains(e.message, "openai") ==>
                  r.status == e.statusCode && r.body.message == e.message)
            && (Contains(e.message, "supabase") && !Contains(e.message, "openai") ==>
                  r.status == 500 && r.body.message == "Database connection error")
            && (Contains(e.message, "openai") ==> r.status == 500 && r.body.message == "AI service error")
  {
    PlainErrorClassification(e);
  }

  /** Whether the 404 message mentions a service is decided by the URL alone. */
  lemma NotFoundMessage(m: string, url: string)
    requires m == "Not Found - " + url
    ensures m != ""
    ensures Contains(m, "supabase") <==> Contains(url, "supabase")
    ensures Contains(m, "openai") <==> Contains(url, "openai")
  {
    var p := "Not Found - ";
    NotFoundPrefixIsClean(p, url, "supabase");
    NotFoundPrefixIsClean(p, url, "openai");
    ContainsAfterPrefix(p, url, "supabase");
    ContainsAfterPrefix(p, url, "openai");
  }
}

=== FILE: extraction.dfy ===
/** Text extraction from a stored file: `extractTextFromBuffer`, which
    dispatches on the file name's extension, and `extractTextFromFile`, which
    dispatches on the MIME type. The PDF and DOCX parsers are foreign libraries
    and are represented by the reply each would give for this buffer. */
module Extraction {
  import opened Model
  import opened Text
  import opened Html

  /** `fileName.split(".").pop()?.toLowerCase() || ""`: the lower-cased text
      after the last dot. `pop` of a split is never undefined, and the `|| ""`
      only replaces an empty string by itself. */
  function Extension(fileName: string): (ext: string)
    ensures |ext| <= |fileName|
    ensures '.' !in ext
  {
    var parts := Split(fileName, '.');
    LastPieceBounds(fileName);
    Lower(parts[|parts| - 1])
  }

  /** The piece after the last dot is no longer than the name and, lower-cased, holds no dot. */
  lemma LastPieceBounds(fileName: string)
    ensures var parts := Split(fileName, '.');
            var last := parts[|parts| - 1];
            |last| <= |fileName| && '.' !in Lower(last)
  {
    LastPieceIsAfterLast(fileName, '.');
    LowerKeepsNoDot(AfterLast(fileName, '.'));
  }

  lemma LowerKeepsNoDot(s: string)
    requires '.' !in s
    ensures '.' !in Lower(s)
  {
    var r := Lower(s);
    forall i | 0 <= i < |r| ensures r[i] != '.' {
      assert s[i] != '.';
    }
  }

  /** The extension is the lower-cased suffix after the last dot. */
  lemma ExtensionIsAfterLastDot(fileName: string)
    ensures Extension(fileName) == Lower(AfterLast(fileName, '.'))
  {
    LastPieceIsAfterLast(fileName, '.');
  }

  /** A name without a dot is its own extension, lower-cased. */
  lemma ExtensionWithoutDot(fileName: string)
    requires '.' !in fileName
    ensures Extension(fileName) == Lower(fileName)
  {
    ExtensionIsAfterLastDot(fileName);
    AfterLastUnique(fileName, '.', fileName);
  }

  /** A name ending in a dot has the empty extension. */
  lemma ExtensionAfterTrailingDot(stem: string)
    ensures Extension(stem + ".") == ""
  {
    ExtensionIsAfterLastDot(stem + ".");
  }

  /** `stem.ext` with a dot-free `ext` has extension `ext`, lower-cased,
      whatever dots `stem` holds. */
  lemma ExtensionOfDotted(stem: string, ext: string)
    requires '.' !in ext
    ensures Extension(stem + "." + ext) == Lower(ext)
  {
    var name := stem + "." + ext;
    ExtensionIsAfterLastDot(name);
    assert name[|name| - |ext|..] == ext;
    assert name[|name| - |ext| - 1] == '.';
    AfterLastUnique(name, '.', ext);
  }

  /** The branches of the `switch` in `extractTextFromBuffer`. */
  datatype Format = Pdf | Docx | PlainText | Markup | Unsupported

  function FormatOf(ext: string): (f: Format)
    ensures f.Pdf? <==> ext == "pdf"
    ensures f.Docx? <==> ext == "docx"
    ensures f.PlainText? <==> ext == "txt"
    ensures f.Markup? <==> ext == "html" || ext == "htm"
    ensures f.Unsupported? <==> ext !in {"pdf", "docx", "txt", "html", "htm"}
  {
    if ext == "pdf" then Pdf
    else if ext == "docx" then Docx
    else if ext == "txt" then PlainText
    else if ext == "html" || ext == "htm" then Markup
    else Unsupported
  }

  /** `extractTextFromBuffer(buffer, fileName)`. `pdf` and `docx` are what the
      PDF and DOCX parsers return or throw for this buffer; only those two can
      make the extraction fail, and only when they are the ones consulted. */
  function ExtractFromBuffer(buffer: Buffer, fileName: string, pdf: Attempt<string>, docx: Attempt<string>): (r: Attempt<string>)
    ensures r.Err? ==> (Extension(fileName) == "pdf" && r == pdf) || (Extension(fileName) == "docx" && r == docx)
    ensures Extension(fileName) == "pdf" ==> r == pdf
    ensures Extension(fileName) == "docx" ==> r == docx
    ensures Extension(fileName) == "txt" ==> r == Ok(buffer.utf8)
    ensures Extension(fileName) in {"html", "htm"} ==> r == Ok(HtmlToText(buffer.utf8))
  {
    match FormatOf(Extension(fileName))
    case Pdf => pdf
    case Docx => docx
    case PlainText => Ok(buffer.utf8)
    case Markup => Ok(HtmlToText(buffer.utf8))
    case Unsupported => Ok("")
  }

  /** Every extension other than the five recognised ones yields the empty
      text, without failing and without consulting a parser. */
  lemma UnsupportedYieldsEmpty(buffer: Buffer, fileName: string, pdf: Attempt<string>, docx: Attempt<string>)
    requires Extension(fileName) !in {"pdf", "docx", "txt", "html", "htm"}
    ensures ExtractFromBuffer(buffer, fileName, pdf, docx) == Ok("")
  {
  }

  /** Only the five recognised extensions can produce non-empty text. */
  lemma TextOnlyFromKnownExtensions(buffer: Buffer, fileName: string, pdf: Attempt<string>, docx: Attempt<string>)
    requires ExtractFromBuffer(buffer, fileName, pdf, docx).Ok?
    requires ExtractFromBuffer(buffer, fileName, pdf, docx).value != ""
    ensures Extension(fileName) in {"pdf", "docx", "txt", "html", "htm"}
  {
  }

  /** A `.html` or `.htm` file, in any letter case, goes through the markup
      rewrite, and its text carries no whitespace at the edges and no
      whitespace run. */
  lemma MarkupFilesAreNormalised(buffer: Buffer, stem: string, ext: string, pdf: Attempt<string>, docx: Attempt<string>)
    requires '.' !in ext && Lower(ext) in {"html", "htm"}
    ensures var r := ExtractFromBuffer(buffer, stem + "." + ext, pdf, docx);
            r == Ok(HtmlToText(buffer.utf8)) && NoEdgeSpace(r.value) && NoDoubleSpace(r.value)
  {
    ExtensionOfDotted(stem, ext);
  }

  /** `.doc` and `.csv` files are not extracted: the result is the empty text. */
  lemma DocAndCsvYieldEmpty(buffer: Buffer, stem: string, ext: string, pdf: Attempt<string>, docx: Attempt<string>)
    requires ext == "doc" || ext == "csv"
    ensures ExtractFromBuffer(buffer, stem + "." + ext, pdf, docx) == Ok("")
  {
    ExtensionOfDotted(stem, ext);
    assert Lower(ext) == ext;
  }

  const PdfMime := "application/pdf"
  const DocxMime := "application/" + "vnd.openxmlformats-officedocument.wordprocessingml.document"

  /** `extractTextFromFile(file)` of the controllers/ copy (defined there but
      never called): PDF and DOCX by MIME type, every `text/` type verbatim,
      anything else empty. */
  function ExtractFromFile(mimeType: string, buffer: Buffer, pdf: Attempt<string>, docx: Attempt<string>): (r: Attempt<string>)
    ensures r.Err? ==> (mimeType == PdfMime && r == pdf) || (mimeType == DocxMime && r == docx)
    ensures mimeType == PdfMime ==> r == pdf
    ensures mimeType == DocxMime ==> r == docx
    ensures StartsWith(mimeType, "text/") ==> r == Ok(buffer.utf8)
    ensures mimeType != PdfMime && mimeType != DocxMime && !StartsWith(mimeType, "text/") ==> r == Ok("")
  {
    if mimeType == PdfMime then
      assert mimeType[0] != "text/"[0];
      pdf
    else if mimeType == DocxMime then
      assert DocxMime[0] == 'a';
      docx
    else if StartsWith(mimeType, "text/") then Ok(buffer.utf8)
    else Ok("")
  }

  /** The two extractors disagree on markup: by MIME type an HTML file is
      returned verbatim, by name it is rewritten. */
  lemma HtmlByMimeIsVerbatim(buffer: Buffer, pdf: Attempt<string>, docx: Attempt<string>)
    ensures ExtractFromFile("text/html", buffer, pdf, docx) == Ok(buffer.utf8)
  {
    assert StartsWith("text/html", "text/");
  }
}

=== FILE: html.dfy ===
/** The HTML branch of the text extractor: four global regular-expression
    replacements followed by `trim`. A global `String.prototype.replace` scans
    left to right; at each position it either matches (and the match is
    replaced, the scan resuming after it) or copies one character. */
module Html {
  import opened Model
  import opened Text

  /** The regular expressions of the HTML branch:
      `Block(t)` is `/<t[^>]*>[\s\S]*?<\/t>/gi`, `Tag` is `/<[^>]+>/g`,
      `SpaceRun` is `/\s+/g`. */
  datatype Pattern = Block(tag: string) | Tag | SpaceRun

  /** Case-insensitive prefix test of an `i`-flagged, non-unicode regular
      expression whose pattern text is ASCII: letters compare modulo ASCII
      case, everything else exactly. */
  predicate StartsWithIgnoreCase(s: string, t: string) {
    |t| <= |s| && forall i :: 0 <= i < |t| ==> LowerChar(s[i]) == LowerChar(t[i])
  }

  /** The first position at or after `from` holding `c`. */
  function FirstIndexOf(s: string, c: char, from: nat): (r: Option<nat>)
    ensures r.Some? ==> from <= r.value < |s| && s[r.value] == c
    ensures forall k :: from <= k < |s| && (r.None? || k < r.value) ==> s[k] != c
    decreases |s| - from
  {
    if from >= |s| then None
    else if s[from] == c then Some(from)
    else FirstIndexOf(s, c, from + 1)
  }

  /** The first position at or after `from` where `t` occurs, ignoring case. */
  function FindIgnoreCase(s: string, t: string, from: nat): (r: Option<nat>)
    ensures r.Some? ==> from <= r.value <= |s| && StartsWithIgnoreCase(s[r.value..], t)
    ensures forall k {:trigger StartsWithIgnoreCase(s[k..], t)} :: from <= k <= |s| && (r.None? || k < r.value) ==> !StartsWithIgnoreCase(s[k..], t)
    decreases |s| - from
  {
    if from > |s| then None
    else if StartsWithIgnoreCase(s[from..], t) then Some(from)
    else FindIgnoreCase(s, t, from + 1)
  }

  /** The match of `/<t[^>]*>[\s\S]*?<\/t>/i` at the start of `s`: `[^>]*>` ends
      at the first '>' after the opening text, and the lazy `[\s\S]*?` stops at
      the first closing tag after that. */
  function BlockMatch(s: string, tag: string): (r: Option<nat>)
    ensures r.Some? ==> 0 < r.value <= |s|
  {
    var open := "<" + tag;
    var close := "</" + tag + ">";
    if !StartsWithIgnoreCase(s, open) then None
    else match FirstIndexOf(s, '>', |open|)
      case None => None
      case Some(q) =>
        match FindIgnoreCase(s, close, q + 1)
        case None => None
        case Some(k) => Some(k + |close|)
  }

  /** `s[..n]` is a block for `tag` whose opening text ends at the '>' at
      `q`: `s` starts with `<tag` ignoring case, `q` is the first '>' after
      that, and a closing `</tag>` ends at `n` with no earlier one starting
      after `q`. */
  predicate BlockSpan(s: string, tag: string, q: nat, n: nat) {
    var open := "<" + tag;
    var close := "</" + tag + ">";
    && StartsWithIgnoreCase(s, open)
    && |open| <= q < |s| && s[q] == '>'
    && (forall j :: |open| <= j < q ==> s[j] != '>')
    && q + 1 + |close| <= n <= |s|
    && StartsWithIgnoreCase(s[n - |close|..], close)
    && (forall k :: q + 1 <= k < n - |close| ==> !StartsWithIgnoreCase(s[k..], close))
  }

  /** The match of `/<[^>]+>/` at the start of `s`: a '<', at least one
      character other than '>', and the first '>' after them. */
  function TagMatch(s: string): (r: Option<nat>)
    ensures r.Some? ==> 3 <= r.value <= |s| && s[0] == '<' && s[r.value - 1] == '>'
  {
    if |s| >= 2 && s[0] == '<' && s[1] != '>' then
      match FirstIndexOf(s, '>', 2)
      case None => None
      case Some(q) => Some(q + 1)
    else None
  }

  /** The length of the match of `p` that starts at the first character of
      `s`, if the pattern matches there. */
  function MatchAt(p: Pattern, s: string): (r: Option<nat>)
    ensures r.Some? ==> 0 < r.value <= |s|
  {
    match p
    case Block(tag) => BlockMatch(s, tag)
    case Tag => TagMatch(s)
    case SpaceRun => if s != [] && IsSpace(s[0]) then Some(|s| - |TrimStart(s)|) else None
  }

  /** A whitespace match covers the whole run of whitespace at the front. */
  lemma SpaceRunMatch(s: string)
    requires MatchAt(SpaceRun, s).Some?
    ensures var n := MatchAt(SpaceRun, s).value;
            AllSpace(s[..n]) && (n == |s| || !IsSpace(s[n]))
  {
  }

  /** `s.replace(p, with)` for a global regular expression `p`. */
  function ReplaceAll(s: string, p: Pattern, with: string): string
    decreases |s|
  {
    if s == [] then []
    else match MatchAt(p, s)
      case Some(n) => with + ReplaceAll(s[n..], p, with)
      case None => [s[0]] + ReplaceAll(s[1..], p, with)
  }

  /** The tag pattern matches nowhere in `s`. */
  predicate NoTag(s: string) {
    forall i :: 0 <= i < |s| ==> TagMatch(s[i..]).None?
  }

  function RemoveScripts(s: string): string { ReplaceAll(s, Block("script"), "") }
  function RemoveStyles(s: string): string { ReplaceAll(s, Block("style"), "") }
  function TagsToSpaces(s: string): string { ReplaceAll(s, Tag, " ") }
  function CollapseSpaces(s: string): string { ReplaceAll(s, SpaceRun, " ") }

  /** The HTML branch of `extractTextFromBuffer`: the result has no markup tag
      left, no whitespace at either end, no two whitespace characters in a row,
      and keeps every visible (non-whitespace) character of the tag-stripped
      text in order. */
  function HtmlToText(html: string): (r: string)
    ensures NoEdgeSpace(r)
    ensures NoDoubleSpace(r)
    ensures NoTag(r)
    ensures NonSpace(r) == NonSpace(TagsToSpaces(RemoveStyles(RemoveScripts(html))))
  {
    var stripped := TagsToSpaces(RemoveStyles(RemoveScripts(html)));
    var collapsed := CollapseSpaces(stripped);
    TagsToSpacesLeavesNoTag(RemoveStyles(RemoveScripts(html)));
    CollapseLeavesNoDoubleSpace(stripped);
    CollapseKeepsNonSpace(stripped);
    CollapseKeepsNoTag(stripped);
    TrimKeeps(collapsed);
    Trim(collapsed)
  }

  /** Every character of a replacement's output comes from the input or from
      the replacement text. */
  lemma {:induction false} ReplaceChars(s: string, p: Pattern, with: string, c: char)
    requires c in ReplaceAll(s, p, with)
    ensures c in s || c in with
    decreases |s|
  {
    match MatchAt(p, s)
    case Some(n) =>
      if c !in with {
        ReplaceChars(s[n..], p, with, c);
      }
    case None =>
      if c != s[0] {
        ReplaceChars(s[1..], p, with, c);
      }
  }

  /** When the pattern matches nowhere, the replacement changes nothing. */
  lemma {:induction false} NoMatchUnchanged(s: string, p: Pattern, with: string)
    requires forall i :: 0 <= i < |s| ==> MatchAt(p, s[i..]).None?
    ensures ReplaceAll(s, p, with) == s
    decreases |s|
  {
    if s != [] {
      assert MatchAt(p, s[0..]).None?;
      assert s[0..] == s;
      forall i | 0 <= i < |s[1..]| ensures MatchAt(p, s[1..][i..]).None? {
        assert s[1..][i..] == s[i + 1..];
      }
      NoMatchUnchanged(s[1..], p, with);
    }
  }

  lemma SuffixKeepsNoTag(s: string, k: nat)
    requires NoTag(s) && k <= |s|
    ensures NoTag(s[k..])
  {
    forall i | 0 <= i < |s[k..]| ensures TagMatch(s[k..][i..]).None? {
      assert s[k..][i..] == s[k + i..];
    }
  }

  /** Prefixing one character keeps `s` tag-free unless it opens a tag. */
  lemma ConsKeepsNoTag(c: char, rest: string)
    requires NoTag(rest)
    requires c == '<' ==> (rest == [] || rest[0] == '>' || '>' !in rest)
    ensures NoTag([c] + rest)
  {
    var r := [c] + rest;
    forall i | 0 <= i < |r| ensures TagMatch(r[i..]).None? {
      if i > 0 {
        assert r[i..] == rest[i - 1..];
      } else {
        assert r[0..] == r;
      }
    }
  }

  /** After every tag has been replaced by a space, no tag is left: a space
      cannot open or close one. */
  lemma {:induction false} TagsToSpacesLeavesNoTag(s: string)
    ensures NoTag(TagsToSpaces(s))
    decreases |s|
  {
    if s == [] {
    } else {
      match MatchAt(Tag, s)
      case Some(n) =>
        TagsToSpacesLeavesNoTag(s[n..]);
        ConsKeepsNoTag(' ', TagsToSpaces(s[n..]));
      case None =>
        var rest := TagsToSpaces(s[1..]);
        TagsToSpacesLeavesNoTag(s[1..]);
        if s[0] == '<' && |s| >= 2 {
          if s[1] == '>' {
            assert s[1..][1..] == s[2..];
            assert rest == [s[1]] + TagsToSpaces(s[2..]);
          } else {
            assert '>' !in s[1..];
            if '>' in rest {
              ReplaceChars(s[1..], Tag, " ", '>');
            }
          }
        }
        ConsKeepsNoTag(s[0], rest);
    }
  }

  /** A collapsed text starts with whitespace exactly when its input does. */
  lemma CollapseHead(s: string)
    requires s != []
    ensures CollapseSpaces(s) != []
    ensures IsSpace(CollapseSpaces(s)[0]) <==> IsSpace(s[0])
  {
  }

  lemma ConsKeepsNoDoubleSpace(c: char, rest: string)
    requires NoDoubleSpace(rest)
    requires IsSpace(c) ==> rest == [] || !IsSpace(rest[0])
    ensures NoDoubleSpace([c] + rest)
  {
    var r := [c] + rest;
    forall i | 0 < i < |r| ensures !(IsSpace(r[i - 1]) && IsSpace(r[i])) {
      if i > 1 {
        assert r[i - 1] == rest[i - 2] && r[i] == rest[i - 1];
      }
    }
  }

  /** `/\s+/g` to one space leaves no two whitespace characters side by side. */
  lemma {:induction false} CollapseLeavesNoDoubleSpace(s: string)
    ensures NoDoubleSpace(CollapseSpaces(s))
    decreases |s|
  {
    if s != [] {
      match MatchAt(SpaceRun, s)
      case Some(n) =>
        CollapseLeavesNoDoubleSpace(s[n..]);
        if s[n..] != [] {
          CollapseHead(s[n..]);
        }
        ConsKeepsNoDoubleSpace(' ', CollapseSpaces(s[n..]));
      case None =>
        CollapseLeavesNoDoubleSpace(s[1..]);
        ConsKeepsNoDoubleSpace(s[0], CollapseSpaces(s[1..]));
    }
  }

  /** Collapsing whitespace runs keeps every other character, in order. */
  lemma {:induction false} CollapseKeepsNonSpace(s: string)
    ensures NonSpace(CollapseSpaces(s)) == NonSpace(s)
    decreases |s|
  {
    if s != [] {
      match MatchAt(SpaceRun, s)
      case Some(n) =>
        CollapseKeepsNonSpace(s[n..]);
        NonSpaceAppend(" ", CollapseSpaces(s[n..]));
        assert s == s[..n] + s[n..];
        NonSpaceAppend(s[..n], s[n..]);
        NonSpaceOfSpaces(s[..n]);
      case None =>
        CollapseKeepsNonSpace(s[1..]);
    }
  }

  /** Collapsing whitespace cannot create a tag. */
  lemma {:induction false} CollapseKeepsNoTag(s: string)
    requires NoTag(s)
    ensures NoTag(CollapseSpaces(s))
    decreases |s|
  {
    if s == [] {
    } else if IsSpace(s[0]) {
      var n := |s| - |TrimStart(s)|;
      assert MatchAt(SpaceRun, s) == Some(n);
      SuffixKeepsNoTag(s, n);
      CollapseKeepsNoTag(s[n..]);
      ConsKeepsNoTag(' ', CollapseSpaces(s[n..]));
    } else {
      var rest := CollapseSpaces(s[1..]);
      assert CollapseSpaces(s) == [s[0]] + rest;
      SuffixKeepsNoTag(s, 1);
      CollapseKeepsNoTag(s[1..]);
      if s[0] == '<' && |s| >= 2 {
        TagFreeOpening(s);
        if s[1] == '>' {
          assert s[1..][1..] == s[2..];
          assert rest == [s[1]] + CollapseSpaces(s[2..]);
        } else if '>' in rest {
          ReplaceChars(s[1..], SpaceRun, " ", '>');
        }
      }
      ConsKeepsNoTag(s[0], rest);
    }
  }

  /** In a tag-free text, a '<' is followed by '>' or by no '>' at all. */
  lemma TagFreeOpening(s: string)
    requires NoTag(s) && |s| >= 2 && s[0] == '<'
    ensures s[1] == '>' || '>' !in s[1..]
  {
    assert s[0..] == s;
  }

  lemma FirstIndexOfExtends(x: string, y: string, c: char, from: nat)
    requires FirstIndexOf(x, c, from).Some?
    ensures FirstIndexOf(x + y, c, from) == FirstIndexOf(x, c, from)
  {
    var q := FirstIndexOf(x, c, from).value;
    assert (x + y)[q] == c;
  }

  /** A tag found in `x` is still found when more text follows it. */
  lemma TagMatchExtends(x: string, y: string)
    requires TagMatch(x).Some?
    ensures TagMatch(x + y) == TagMatch(x)
  {
    FirstIndexOfExtends(x, y, '>', 2);
  }

  /** `trim` keeps the three properties the collapse established. */
  lemma TrimKeeps(s: string)
    ensures NoDoubleSpace(s) ==> NoDoubleSpace(Trim(s))
    ensures NoTag(s) ==> NoTag(Trim(s))
    ensures NonSpace(Trim(s)) == NonSpace(s)
  {
    var a, b := TrimIsSlice(s);
    if NoDoubleSpace(s) { TrimKeepsNoDoubleSpace(s, a, b); }
    if NoTag(s) { TrimKeepsNoTag(s, a, b); }
    TrimKeepsNonSpace(s, a, b);
  }

  lemma TrimKeepsNoDoubleSpace(s: string, a: nat, b: nat)
    requires a <= b <= |s| && NoDoubleSpace(s)
    ensures NoDoubleSpace(s[a..b])
  {
    var r := s[a..b];
    forall i | 0 < i < |r| ensures !(IsSpace(r[i - 1]) && IsSpace(r[i])) {
      assert r[i - 1] == s[a + i - 1] && r[i] == s[a + i];
    }
  }

  lemma TrimKeepsNoTag(s: string, a: nat, b: nat)
    requires a <= b <= |s| && NoTag(s)
    ensures NoTag(s[a..b])
  {
    var r := s[a..b];
    forall i | 0 <= i < |r| ensures TagMatch(r[i..]).None? {
      assert s[a + i..] == r[i..] + s[b..];
      if TagMatch(r[i..]).Some? {
        TagMatchExtends(r[i..], s[b..]);
      }
    }
  }

  lemma TrimKeepsNonSpace(s: string, a: nat, b: nat)
    requires a <= b <= |s| && AllSpace(s[..a]) && AllSpace(s[b..])
    ensures NonSpace(s[a..b]) == NonSpace(s)
  {
    var r := s[a..b];
    assert s[a..] == r + s[b..];
    assert s == s[..a] + s[a..];
    NonSpaceAppend(s[..a], r + s[b..]);
    NonSpaceAppend(r, s[b..]);
    NonSpaceOfSpaces(s[..a]);
    NonSpaceOfSpaces(s[b..]);
  }

  /** Where `p` does not match, the replacement copies one character. */
  lemma ReplaceCopies(s: string, p: Pattern, with: string)
    requires s != [] && MatchAt(p, s).None?
    ensures ReplaceAll(s, p, with) == [s[0]] + ReplaceAll(s[1..], p, with)
  {
  }

  /** Every block match is a block span. */
  lemma BlockMatchIsSpan(s: string, tag: string) returns (q: nat)
    ensures BlockMatch(s, tag).Some? ==> BlockSpan(s, tag, q, BlockMatch(s, tag).value)
  {
    var open := "<" + tag;
    var close := "</" + tag + ">";
    if BlockMatch(s, tag).Some? {
      q := FirstIndexOf(s, '>', |open|).value;
      var k := FindIgnoreCase(s, close, q + 1).value;
      assert BlockMatch(s, tag) == Some(k + |close|);
    } else {
      q := 0;
    }
  }

  /** Every block span is the block match. */
  lemma SpanIsBlockMatch(s: string, tag: string, q: nat, n: nat)
    requires BlockSpan(s, tag, q, n)
    ensures BlockMatch(s, tag) == Some(n)
  {
    var open := "<" + tag;
    var close := "</" + tag + ">";
    var first := FirstIndexOf(s, '>', |open|);
    assert first == Some(q);
    var found := FindIgnoreCase(s, close, q + 1);
    assert found == Some(n - |close|);
  }

  /** Whether `s` starts with `t` depends only on its first `|t|` characters. */
  lemma StartsWithExtends(x: string, y: string, t: string)
    requires |t| <= |x|
    ensures StartsWithIgnoreCase(x + y, t) <==> StartsWithIgnoreCase(x, t)
  {
    assert forall i :: 0 <= i < |t| ==> (x + y)[i] == x[i];
  }

  /** A block span stays one when text follows it. */
  lemma SpanExtends(m: string, y: string, tag: string, q: nat)
    requires BlockSpan(m, tag, q, |m|)
    ensures BlockSpan(m + y, tag, q, |m|)
  {
    var s := m + y;
    var open := "<" + tag;
    var close := "</" + tag + ">";
    StartsWithExtends(m, y, open);
    assert s[q] == m[q];
    assert forall j :: |open| <= j < q ==> s[j] == m[j];
    assert s[|m| - |close|..] == m[|m| - |close|..] + y;
    StartsWithExtends(m[|m| - |close|..], y, close);
    forall k | q + 1 <= k < |m| - |close| ensures !StartsWithIgnoreCase(s[k..], close) {
      assert s[k..] == m[k..] + y;
      StartsWithExtends(m[k..], y, close);
    }
  }

  /** A whole block at the front of the text is replaced as one match. */
  lemma BlockVanishes(m: string, y: string, tag: string, q: nat, with: string)
    requires BlockSpan(m, tag, q, |m|)
    ensures ReplaceAll(m + y, Block(tag), with) == with + ReplaceAll(y, Block(tag), with)
  {
    SpanExtends(m, y, tag, q);
    SpanIsBlockMatch(m + y, tag, q, |m|);
    ReplaceMatch(m, y, Block(tag), with);
  }

  /** A match of `p` covering exactly `m` is replaced as a whole. */
  lemma ReplaceMatch(m: string, y: string, p: Pattern, with: string)
    requires m != [] && MatchAt(p, m + y) == Some(|m|)
    ensures ReplaceAll(m + y, p, with) == with + ReplaceAll(y, p, with)
  {
    assert (m + y)[|m|..] == y;
  }

  /** A whole tag at the front of the text is matched exactly. */
  lemma TagAtFront(m: string, y: string)
    requires |m| >= 3 && m[0] == '<' && m[1] != '>' && m[|m| - 1] == '>'
    requires forall k :: 1 <= k < |m| - 1 ==> m[k] != '>'
    ensures MatchAt(Tag, m + y) == Some(|m|)
  {
    var s := m + y;
    assert s[|m| - 1] == '>';
    assert forall k :: 2 <= k < |m| - 1 ==> s[k] == m[k];
  }

  /** A whitespace run at the front of the text is matched exactly. */
  lemma SpacesAtFront(m: string, y: string)
    requires m != [] && AllSpace(m) && (y == [] || !IsSpace(y[0]))
    ensures MatchAt(SpaceRun, m + y) == Some(|m|)
  {
    var s := m + y;
    assert IsSpace(m[0]);
    assert s[0] == m[0];
    TrimStartSpaces(m, y);
    assert |s| - |TrimStart(s)| == |m|;
  }

  lemma {:induction false} TrimStartSpaces(m: string, y: string)
    requires AllSpace(m) && (y == [] || !IsSpace(y[0]))
    ensures TrimStart(m + y) == y
    decreases |m|
  {
    if m == [] {
      assert m + y == y;
    } else {
      assert (m + y)[1..] == m[1..] + y;
      TrimStartSpaces(m[1..], y);
    }
  }

  lemma {:induction false} TrimEndSpaces(x: string, m: string)
    requires AllSpace(m) && (x == [] || !IsSpace(x[|x| - 1]))
    ensures TrimEnd(x + m) == x
    decreases |m|
  {
    if m == [] {
      assert x + m == x;
    } else {
      assert (x + m)[..|x + m| - 1] == x + m[..|m| - 1];
      TrimEndSpaces(x, m[..|m| - 1]);
    }
  }

  /** A tag at the front of the text becomes exactly one space. */
  lemma TagBecomesSpace(m: string, y: string)
    requires |m| >= 3 && m[0] == '<' && m[1] != '>' && m[|m| - 1] == '>'
    requires forall k :: 1 <= k < |m| - 1 ==> m[k] != '>'
    ensures TagsToSpaces(m + y) == " " + TagsToSpaces(y)
  {
    TagAtFront(m, y);
    ReplaceMatch(m, y, Tag, " ");
  }

  /** A run of whitespace at the front of the text becomes exactly one
      space. */
  lemma SpaceRunBecomesSpace(m: string, y: string)
    requires m != [] && AllSpace(m) && (y == [] || !IsSpace(y[0]))
    ensures CollapseSpaces(m + y) == " " + CollapseSpaces(y)
  {
    SpacesAtFront(m, y);
    ReplaceMatch(m, y, SpaceRun, " ");
  }

  /** A '<' whose next letter is not the tag's first letter opens no block. */
  lemma NotOpening(s: string, tag: string)
    requires |s| >= 2 && tag != [] && LowerChar(s[1]) != LowerChar(tag[0])
    ensures BlockMatch(s, tag).None?
  {
    assert ("<" + tag)[1] == tag[0];
  }

  /** A text starting with `t` exactly starts with it ignoring case. */
  lemma ExactPrefix(s: string, t: string)
    requires |t| <= |s| && s[..|t|] == t
    ensures StartsWithIgnoreCase(s, t)
  {
    forall i | 0 <= i < |t| ensures LowerChar(s[i]) == LowerChar(t[i]) {
      assert s[..|t|][i] == s[i];
    }
  }

  /** With no '<' between `from` and `to`, a closing tag at `to` is the first
      one found from `from`. */
  lemma FindAfterNoAngle(s: string, t: string, from: nat, to: nat)
    requires from <= to <= |s| && t != [] && t[0] == '<'
    requires forall k :: from <= k < to ==> s[k] != '<'
    requires StartsWithIgnoreCase(s[to..], t)
    ensures FindIgnoreCase(s, t, from) == Some(to)
  {
    forall k | from <= k < to ensures !StartsWithIgnoreCase(s[k..], t) {
      assert s[k..][0] == s[k];
    }
  }

  /** Neither a tag nor a block starts at a character other than '<'. */
  lemma NoMatchWithoutAngle(s: string, p: Pattern)
    requires !p.SpaceRun? && s != [] && s[0] != '<'
    ensures MatchAt(p, s).None?
  {
    if p.Block? {
      assert LowerChar(s[0]) != LowerChar(("<" + p.tag)[0]);
    }
  }

  /** `'<' !in x`, spelt out position by position. */
  lemma AngleFree(x: string)
    requires '<' !in x
    ensures forall i :: 0 <= i < |x| ==> x[i] != '<'
  {
  }

  /** Text without '<' is copied unchanged by the tag replacement. */
  lemma {:induction false} CopyWithoutAngleTag(x: string, y: string, with: string)
    requires forall i :: 0 <= i < |x| ==> x[i] != '<'
    ensures ReplaceAll(x + y, Tag, with) == x + ReplaceAll(y, Tag, with)
    decreases |x|
  {
    if x == [] {
      assert x + y == y;
    } else {
      var rest := x[1..] + y;
      var ry := ReplaceAll(y, Tag, with);
      assert x + y == [x[0]] + rest;
      CopyOne(x[0], rest, Tag, with);
      CopyWithoutAngleTag(x[1..], y, with);
      assert [x[0]] + (x[1..] + ry) == x + ry;
    }
  }

  /** A text in which no '<' is followed by the block's first letter holds
      no block, so the block replacement leaves it unchanged. */
  lemma NoOpeningUnchanged(s: string, tag: string, with: string)
    requires tag != []
    requires forall i :: 0 <= i < |s| - 1 && s[i] == '<' ==> LowerChar(s[i + 1]) != LowerChar(tag[0])
    ensures ReplaceAll(s, Block(tag), with) == s
  {
    forall i | 0 <= i < |s| ensures MatchAt(Block(tag), s[i..]).None? {
      NoBlockAt(s, i, tag);
    }
    NoMatchUnchanged(s, Block(tag), with);
  }

  /** No block starts at position `i` unless a '<' there is followed by the
      block's first letter. */
  lemma NoBlockAt(s: string, i: nat, tag: string)
    requires tag != [] && i < |s|
    requires i < |s| - 1 && s[i] == '<' ==> LowerChar(s[i + 1]) != LowerChar(tag[0])
    ensures MatchAt(Block(tag), s[i..]).None?
  {
    var t := s[i..];
    if t[0] != '<' {
      NoMatchWithoutAngle(t, Block(tag));
    } else if |t| >= 2 {
      assert t[1] == s[i + 1];
      NotOpening(t, tag);
    }
  }

  /** A character other than '<' is copied by a tag or block replacement. */
  lemma CopyOne(c: char, y: string, p: Pattern, with: string)
    requires !p.SpaceRun? && c != '<'
    ensures ReplaceAll([c] + y, p, with) == [c] + ReplaceAll(y, p, with)
  {
    var s := [c] + y;
    NoMatchWithoutAngle(s, p);
    ReplaceCopies(s, p, with);
    assert s[1..] == y;
  }

  /** Text without whitespace is copied unchanged by the collapse. */
  lemma {:induction false} CopyWithoutSpace(x: string, y: string)
    requires forall i :: 0 <= i < |x| ==> !IsSpace(x[i])
    ensures CollapseSpaces(x + y) == x + CollapseSpaces(y)
    decreases |x|
  {
    if x == [] {
      assert x + y == y;
    } else {
      var s := x + y;
      assert s[0] == x[0];
      ReplaceCopies(s, SpaceRun, " ");
      assert s[1..] == x[1..] + y;
      CopyWithoutSpace(x[1..], y);
      assert [x[0]] + (x[1..] + CollapseSpaces(y)) == x + CollapseSpaces(y);
    }
  }
}

=== FILE: html_example.dfy ===
/** A worked run of the HTML branch of the extractor on one page, step by
    step: the script block vanishes with its content, each remaining tag
    becomes a space, the spaces collapse, and the ends are trimmed. */
module HtmlExample {
  import opened Model
  import opened Text
  import opened Html

  /** `<script>bad()</script><p>Hello <b>World</b></p>` reads `Hello World`. */
  lemma HtmlExample(html: string)
    requires html == "<script>bad()</script><p>Hello <b>World</b></p>"
    ensures HtmlToText(html) == "Hello World"
  {
    ExampleSplit(html);
    ExampleText("Hello World");
    ExampleLiterals(html, "Hello World");
  }

  /** The page as its named pieces: the script block, then the visible part. */
  lemma ExampleSplit(html: string)
    requires html == "<script>bad()</script><p>Hello <b>World</b></p>"
    ensures html == ("<script" + (">" + ("bad()" + "</script>")))
                    + ("<p>" + ("Hello" + (" " + ("<b>" + ("World" + ("</b>" + ("</p>" + [])))))))
  {
    PageHalves(html);
    HeadPieces("<script>bad()</script>");
    BodyPieces("<p>Hello <b>World</b></p>");
  }

  /** The page is the script block followed by the visible part. */
  lemma PageHalves(html: string)
    requires html == "<script>bad()</script><p>Hello <b>World</b></p>"
    ensures html == "<script>bad()</script>" + "<p>Hello <b>World</b></p>"
  {
  }

  /** The script block as opening text, `>`, script body and closing tag. */
  lemma HeadPieces(head: string)
    requires head == "<script>bad()</script>"
    ensures head == "<script" + (">" + ("bad()" + "</script>"))
  {
  }

  /** The visible part as its tags and words. */
  lemma BodyPieces(body: string)
    requires body == "<p>Hello <b>World</b></p>"
    ensures body == "<p>" + ("Hello" + (" " + ("<b>" + ("World" + ("</b>" + ("</p>" + []))))))
  {
  }

  /** The expected text as its two words and the space between. */
  lemma ExampleText(t: string)
    requires t == "Hello World"
    ensures t == "Hello" + (" " + "World")
  {
  }

  /** The whole run, on the pieces of the page. */
  lemma ExampleLiterals(html: string, t: string)
    requires html == ("<script" + (">" + ("bad()" + "</script>")))
                     + ("<p>" + ("Hello" + (" " + ("<b>" + ("World" + ("</b>" + ("</p>" + [])))))))
    requires t == "Hello" + (" " + "World")
    ensures HtmlToText(html) == t
  {
    ExamplePieces("<script", ">", "bad()", "</script>", "<p>", "Hello", " ", "<b>", "World", "</b>", "</p>");
  }

  /** The run, stage by stage, on the named pieces of the page. */
  lemma ExamplePieces(o: string, g: string, b: string, c: string,
                      p1: string, h: string, sp: string, p2: string, w: string, p3: string, p4: string)
    requires o == "<script" && g == ">" && b == "bad()" && c == "</script>"
    requires p1 == "<p>" && h == "Hello" && sp == " " && p2 == "<b>" && w == "World" && p3 == "</b>" && p4 == "</p>"
    ensures HtmlToText((o + (g + (b + c))) + (p1 + (h + (sp + (p2 + (w + (p3 + (p4 + [])))))))) == h + (sp + w)
  {
    var body := p1 + (h + (sp + (p2 + (w + (p3 + (p4 + []))))));
    var html := (o + (g + (b + c))) + body;
    ExampleScripts(o, g, b, c, body);
    ExampleKeepsBody(p1, h, sp, p2, w, p3, p4, Block("script"));
    assert RemoveScripts(html) == body;
    ExampleKeepsBody(p1, h, sp, p2, w, p3, p4, Block("style"));
    assert RemoveStyles(body) == body;
    ExampleTags(p1, h, sp, p2, w, p3, p4);
    var spaced := sp + (h + (sp + (sp + (w + (sp + sp)))));
    assert TagsToSpaces(body) == spaced;
    ExampleCollapse(h, sp, w);
    var collapsed := sp + (h + (sp + (w + sp)));
    assert CollapseSpaces(spaced) == collapsed;
    ExampleTrim(h, sp, w);
  }

  /** The script block at the front is one match and is removed whole. */
  lemma ExampleScripts(o: string, g: string, b: string, c: string, body: string)
    requires o == "<script" && g == ">" && b == "bad()" && c == "</script>"
    ensures RemoveScripts((o + (g + (b + c))) + body) == ReplaceAll(body, Block("script"), "")
  {
    var m := o + (g + (b + c));
    var s := m + body;
    assert "<" + "script" == o && "</" + "script" + ">" == c;
    assert s == o + (g + (b + c) + body);
    assert s[..|o|] == o;
    ExactPrefix(s, o);
    assert s[|o|] == '>';
    var at := |o| + 1 + |b|;
    assert s[at..] == c + body;
    assert (c + body)[..|c|] == c;
    ExactPrefix(s[at..], c);
    forall k | |o| + 1 <= k < at ensures s[k] != '<' {
      assert s[k] == b[k - |o| - 1];
    }
    FindAfterNoAngle(s, c, |o| + 1, at);
    assert BlockMatch(s, "script") == Some(|m|);
    ReplaceMatch(m, body, Block("script"), "");
  }

  /** The rest of the page opens no script or style block. */
  lemma ExampleKeepsBody(p1: string, h: string, sp: string, p2: string, w: string, p3: string, p4: string, p: Pattern)
    requires p1 == "<p>" && h == "Hello" && sp == " " && p2 == "<b>" && w == "World" && p3 == "</b>" && p4 == "</p>"
    requires p == Block("script") || p == Block("style")
    ensures var body := p1 + (h + (sp + (p2 + (w + (p3 + (p4 + [])))))); ReplaceAll(body, p, "") == body
  {
    var body := p1 + (h + (sp + (p2 + (w + (p3 + (p4 + []))))));
    BodyPieces("<p>Hello <b>World</b></p>");
    BodyOpenings(body, p.tag);
    NoOpeningUnchanged(body, p.tag, "");
  }

  /** No '<' of the visible part is followed by an `s`, so neither `script`
      nor `style` opens there. */
  lemma BodyOpenings(body: string, tag: string)
    requires body == "<p>Hello <b>World</b></p>"
    requires tag == "script" || tag == "style"
    ensures tag != []
    ensures forall i :: 0 <= i < |body| - 1 && body[i] == '<' ==> LowerChar(body[i + 1]) != LowerChar(tag[0])
  {
  }

  /** Each of the four tags becomes one space and the words are copied. */
  lemma ExampleTags(p1: string, h: string, sp: string, p2: string, w: string, p3: string, p4: string)
    requires p1 == "<p>" && h == "Hello" && sp == " " && p2 == "<b>" && w == "World" && p3 == "</b>" && p4 == "</p>"
    ensures TagsToSpaces(p1 + (h + (sp + (p2 + (w + (p3 + (p4 + []))))))) == sp + (h + (sp + (sp + (w + (sp + sp)))))
  {
    var e: string := [];
    TagBecomesSpace(p4, e);
    TagBecomesSpace(p3, p4 + e);
    AngleFree(w);
    CopyWithoutAngleTag(w, p3 + (p4 + e), sp);
    TagBecomesSpace(p2, w + (p3 + (p4 + e)));
    AngleFree(sp);
    CopyWithoutAngleTag(sp, p2 + (w + (p3 + (p4 + e))), sp);
    AngleFree(h);
    CopyWithoutAngleTag(h, sp + (p2 + (w + (p3 + (p4 + e)))), sp);
    TagBecomesSpace(p1, h + (sp + (p2 + (w + (p3 + (p4 + e))))));
  }

  /** The space runs between and after the words become single spaces. */
  lemma ExampleCollapse(h: string, sp: string, w: string)
    requires h == "Hello" && sp == " " && w == "World"
    ensures CollapseSpaces(sp + (h + (sp + (sp + (w + (sp + sp)))))) == sp + (h + (sp + (w + sp)))
  {
    var e: string := [];
    var t3 := sp + sp;
    assert t3 + e == t3;
    SpaceRunBecomesSpace(t3, e);
    assert CollapseSpaces(t3) == sp;
    var t2 := w + t3;
    NoSpaceInWord(w);
    CopyWithoutSpace(w, t3);
    assert CollapseSpaces(t2) == w + sp;
    var t1 := sp + (sp + t2);
    assert t1 == t3 + t2;
    SpaceRunBecomesSpace(t3, t2);
    assert CollapseSpaces(t1) == sp + (w + sp);
    var t0 := h + t1;
    NoSpaceInWord(h);
    CopyWithoutSpace(h, t1);
    assert CollapseSpaces(t0) == h + (sp + (w + sp));
    SpaceRunBecomesSpace(sp, t0);
  }

  /** The two words hold no whitespace. */
  lemma NoSpaceInWord(x: string)
    requires x == "Hello" || x == "World"
    ensures forall i :: 0 <= i < |x| ==> !IsSpace(x[i])
  {
  }

  /** `trim` drops the single spaces at both ends. */
  lemma ExampleTrim(h: string, sp: string, w: string)
    requires h == "Hello" && sp == " " && w == "World"
    ensures Trim(sp + (h + (sp + (w + sp)))) == h + (sp + w)
  {
    TrimStartSpaces(sp, h + (sp + (w + sp)));
    assert h + (sp + (w + sp)) == (h + (sp + w)) + sp;
    TrimEndSpaces(h + (sp + w), sp);
  }
}

=== FILE: ingestion.dfy ===
/** Embedding ingestion: `storeEmbedding` and `extractTextAndStoreEmbedding`.
    The two controllers differ only in how `storeEmbedding` chooses the
    stored `document_id`, which `IdPolicy` captures. */
module Ingestion {
  import opened Model
  import opened Text
  import opened Extraction

  /** controllers/ keeps the caller's id when it is truthy (`documentId ||
      uuidv4()`); src/ always mints a fresh one (`uuidv4()`). */
  datatype IdPolicy = KeepCallerId | AlwaysFresh

  const RootControllerPolicy := KeepCallerId
  const SrcControllerPolicy := AlwaysFresh

  /** The `document_id` written with an embedding; `freshId` is the `uuidv4()`
      value. */
  function StoredDocumentId(policy: IdPolicy, callerId: string, freshId: string): (id: string)
    ensures id == callerId || id == freshId
    ensures policy.AlwaysFresh? ==> id == freshId
    ensures policy.KeepCallerId? ==> (id == callerId <==> callerId != "" || freshId == "")
  {
    match policy
    case KeepCallerId => if callerId != "" then callerId else freshId
    case AlwaysFresh => freshId
  }

  /** The external calls a step made, in order, and how it ended: a value, or
      the error it threw. */
  datatype Traced<+T> = Traced(calls: seq<Call>, result: Attempt<T>)

  /** `storeEmbedding({ userId, documentId, embedding, text })`. `insert` is
      the outcome of the insert: `Ok`, or the error Supabase returned or
      threw, which is rethrown. */
  function StoreEmbedding(policy: IdPolicy, userId: string, documentId: string, embedding: Embedding,
                          text: string, freshId: string, insert: Attempt<()>): (r: Traced<EmbeddingRecord>)
    ensures |r.calls| == 1 && r.calls[0].InsertEmbedding? && r.calls[0].table == EmbeddingsTable
    ensures var rec := r.calls[0].record;
            && rec.userId == userId && rec.embedding == embedding && rec.text == text
            && rec.documentId == StoredDocumentId(policy, documentId, freshId)
    ensures r.result.Err? <==> insert.Err?
    ensures insert.Err? ==> r.result.message == insert.message
    ensures r.result.Ok? ==> r.result.value == r.calls[0].record
  {
    var rec := EmbeddingRecord(userId, StoredDocumentId(policy, documentId, freshId), embedding, text);
    Traced([InsertEmbedding(EmbeddingsTable, rec)],
           match insert
           case Err(m) => Err(m)
           case Ok(_) => Ok(rec))
  }

  /** The replies the world gives one ingestion: the storage download, the two
      parsers for the downloaded buffer, the embedding service, the insert,
      and the `uuidv4()` value. */
  datatype IngestEnv = IngestEnv(
    download: Attempt<Buffer>,
    pdf: Attempt<string>,
    docx: Attempt<string>,
    embed: Attempt<Embedding>,
    insert: Attempt<()>,
    freshId: string)

  /** A normal end of ingestion: nothing to embed, or the stored row. */
  datatype Ingested = Skipped | Stored(record: EmbeddingRecord)

  /** The shape of an ingestion's calls: the download, then possibly the
      embedding request for the text, then possibly the insert of that text. */
  predicate IngestTrace(calls: seq<Call>, bucket: string, filePath: string) {
    && 1 <= |calls| <= 3
    && calls[0] == StorageDownload(bucket, filePath)
    && (|calls| >= 2 ==> calls[1].Embed?)
    && (|calls| == 3 ==> calls[2].InsertEmbedding? && calls[2].table == EmbeddingsTable
                         && calls[2].record.text == calls[1].input)
  }

  /** The part of ingestion after a non-blank text was extracted. */
  function EmbedAndStore(policy: IdPolicy, documentId: string, userId: string, text: string, env: IngestEnv): (r: Traced<Ingested>)
    ensures 1 <= |r.calls| <= 2 && r.calls[0] == Embed(text)
    ensures |r.calls| == 2 ==> r.calls[1].InsertEmbedding? && r.calls[1].table == EmbeddingsTable && r.calls[1].record.text == text
    ensures r.result.Ok? ==> r.result.value.Stored? && r.calls == [Embed(text), InsertEmbedding(EmbeddingsTable, r.result.value.record)]
    ensures r.result.Ok? ==> var rec := r.result.value.record;
              rec.userId == userId && rec.text == text && rec.documentId == StoredDocumentId(policy, documentId, env.freshId)
    ensures |r.calls| == 2 ==> r.calls[1].record.userId == userId
                               && r.calls[1].record.documentId == StoredDocumentId(policy, documentId, env.freshId)
    ensures r.result.Ok? ==> env.embed.Ok? && r.result.value.record.embedding == env.embed.value
    ensures r.result.Err? ==> env.embed == Err(r.result.message) || env.insert == Err(r.result.message)
    ensures env.embed.Err? ==> r == Traced([Embed(text)], Err(env.embed.message))
    ensures env.embed.Ok? ==> |r.calls| == 2 && (r.result.Ok? <==> env.insert.Ok?)
    ensures env.embed.Ok? && env.insert.Err? ==> r.result == Err(env.insert.message)
  {
    match env.embed
    case Err(m) => Traced([Embed(text)], Err(m))
    case Ok(embedding) =>
      var stored := StoreEmbedding(policy, userId, documentId, embedding, text, env.freshId, env.insert);
      Traced([Embed(text)] + stored.calls,
             match stored.result
             case Err(m) => Err(m)
             case Ok(rec) => Ok(Stored(rec)))
  }

  /** The text the downloaded file yields, or the error the download or a
      parser raised. */
  function DownloadedText(fileName: string, env: IngestEnv): (r: Attempt<string>)
    ensures r.Err? ==> env.download == Err(r.message) || env.pdf == Err(r.message) || env.docx == Err(r.message)
    ensures env.download.Err? ==> r == Err(env.download.message)
    ensures env.download.Ok? ==> r == ExtractFromBuffer(env.download.value, fileName, env.pdf, env.docx)
  {
    match env.download
    case Err(m) => Err(m)
    case Ok(buffer) => ExtractFromBuffer(buffer, fileName, env.pdf, env.docx)
  }

  /** `extractTextAndStoreEmbedding(documentId, userId, bucket, filePath,
      fileName)`: download, extract, skip blank text, embed, store; any error
      on the way is rethrown. */
  function ExtractAndStore(policy: IdPolicy, documentId: string, userId: string, bucket: string,
                           filePath: string, fileName: string, env: IngestEnv): (r: Traced<Ingested>)
    ensures IngestTrace(r.calls, bucket, filePath)
    ensures r.result.Ok? && r.result.value.Stored? ==>
              var rec := r.result.value.record;
              && r.calls == [StorageDownload(bucket, filePath), Embed(rec.text), InsertEmbedding(EmbeddingsTable, rec)]
              && rec.userId == userId
              && rec.documentId == StoredDocumentId(policy, documentId, env.freshId)
              && !AllSpace(rec.text)
    ensures r.result.Err? ==>
              var e := r.result.message;
              env.download == Err(e) || env.pdf == Err(e) || env.docx == Err(e) || env.embed == Err(e) || env.insert == Err(e)
    ensures |r.calls| == 3 ==> r.calls[2].record.userId == userId
                               && r.calls[2].record.documentId == StoredDocumentId(policy, documentId, env.freshId)
  {
    IngestText(policy, documentId, userId, StorageDownload(bucket, filePath), DownloadedText(fileName, env), env)
  }

  /** Ingestion once the download call was made and the text is known. */
  function IngestText(policy: IdPolicy, documentId: string, userId: string, download: Call,
                      text: Attempt<string>, env: IngestEnv): (r: Traced<Ingested>)
    ensures 1 <= |r.calls| <= 3 && r.calls[0] == download
    ensures |r.calls| >= 2 ==> text.Ok? && r.calls[1] == Embed(text.value)
    ensures |r.calls| == 3 ==> r.calls[2].InsertEmbedding? && r.calls[2].table == EmbeddingsTable
                               && r.calls[2].record.text == text.value && r.calls[2].record.userId == userId
                               && r.calls[2].record.documentId == StoredDocumentId(policy, documentId, env.freshId)
    ensures text.Err? ==> r == Traced([download], Err(text.message))
    ensures text.Ok? && AllSpace(text.value) ==> r == Traced([download], Ok(Skipped))
    ensures r.result.Ok? && r.result.value.Stored? ==>
              var rec := r.result.value.record;
              && text == Ok(rec.text)
              && r.calls == [download, Embed(rec.text), InsertEmbedding(EmbeddingsTable, rec)]
              && rec.userId == userId
              && rec.documentId == StoredDocumentId(policy, documentId, env.freshId)
              && !AllSpace(rec.text)
    ensures r.result.Err? ==> text == Err(r.result.message) || env.embed == Err(r.result.message) || env.insert == Err(r.result.message)
  {
    match text
    case Err(m) => Traced([download], Err(m))
    case Ok(t) => IngestExtracted(policy, documentId, userId, download, t, env)
  }

  /** Ingestion of an extracted text: blank text is skipped, anything else is
      embedded and stored. */
  function IngestExtracted(policy: IdPolicy, documentId: string, userId: string, download: Call,
                           t: string, env: IngestEnv): (r: Traced<Ingested>)
    ensures 1 <= |r.calls| <= 3 && r.calls[0] == download
    ensures |r.calls| >= 2 ==> r.calls[1] == Embed(t)
    ensures |r.calls| == 3 ==> r.calls[2].InsertEmbedding? && r.calls[2].table == EmbeddingsTable
                               && r.calls[2].record.text == t && r.calls[2].record.userId == userId
                               && r.calls[2].record.documentId == StoredDocumentId(policy, documentId, env.freshId)
    ensures AllSpace(t) ==> r == Traced([download], Ok(Skipped))
    ensures !AllSpace(t) && env.embed.Err? ==> r == Traced([download, Embed(t)], Err(env.embed.message))
    ensures !AllSpace(t) && env.embed.Ok? && env.insert.Err? ==> |r.calls| == 3 && r.result == Err(env.insert.message)
    ensures !AllSpace(t) && env.embed.Ok? && env.insert.Ok? ==>
              r.result == Ok(Stored(EmbeddingRecord(userId, StoredDocumentId(policy, documentId, env.freshId), env.embed.value, t)))
    ensures r.result.Ok? && r.result.value.Stored? ==>
              var rec := r.result.value.record;
              && rec.text == t
              && r.calls == [download, Embed(t), InsertEmbedding(EmbeddingsTable, rec)]
              && rec.userId == userId
              && rec.documentId == StoredDocumentId(policy, documentId, env.freshId)
              && !AllSpace(t)
    ensures r.result.Err? ==> env.embed == Err(r.result.message) || env.insert == Err(r.result.message)
  {
    // `!text.trim()` holds exactly for whitespace-only text
    // (Text.BlankIffAllSpace).
    if AllSpace(t) then Traced([download], Ok(Skipped))
    else
      var rest := EmbedAndStore(policy, documentId, userId, t, env);
      var calls := [download] + rest.calls;
      assert calls[1] == rest.calls[0];
      assert |calls| == 3 ==> calls[2] == rest.calls[1];
      assert rest.result.Ok? ==> calls == [download] + [Embed(t), InsertEmbedding(EmbeddingsTable, rest.result.value.record)];
      Traced(calls, rest.result)
  }

  /** Text whose `trim()` is empty ends ingestion normally after the
      download, with no embedding request and no insert. */
  lemma BlankTextIsSkipped(policy: IdPolicy, documentId: string, userId: string, bucket: string,
                           filePath: string, fileName: string, env: IngestEnv)
    requires env.download.Ok?
    requires ExtractFromBuffer(env.download.value, fileName, env.pdf, env.docx).Ok?
    requires Trim(ExtractFromBuffer(env.download.value, fileName, env.pdf, env.docx).value) == []
    ensures var r := ExtractAndStore(policy, documentId, userId, bucket, filePath, fileName, env);
            r == Traced([StorageDownload(bucket, filePath)], Ok(Skipped))
  {
    BlankIffAllSpace(ExtractFromBuffer(env.download.value, fileName, env.pdf, env.docx).value);
  }

  /** A failing insert makes the whole ingestion fail with the insert's error,
      after the embedding was requested. */
  lemma InsertErrorIsRethrown(policy: IdPolicy, documentId: string, userId: string, bucket: string,
                              filePath: string, fileName: string, env: IngestEnv)
    requires env.download.Ok? && env.embed.Ok? && env.insert.Err?
    requires ExtractFromBuffer(env.download.value, fileName, env.pdf, env.docx).Ok?
    requires Trim(ExtractFromBuffer(env.download.value, fileName, env.pdf, env.docx).value) != []
    ensures var r := ExtractAndStore(policy, documentId, userId, bucket, filePath, fileName, env);
            r.result == Err(env.insert.message) && |r.calls| == 3
  {
    BlankIffAllSpace(ExtractFromBuffer(env.download.value, fileName, env.pdf, env.docx).value);
  }

  /**
   * A failing download, a failing parser or a failing embedding request is
   * rethrown unchanged, after exactly the calls made up to that step; nothing
   * is inserted.
   */
  lemma FailuresAreRethrown(policy: IdPolicy, documentId: string, userId: string, bucket: string,
                            filePath: string, fileName: string, env: IngestEnv)
    ensures var r := ExtractAndStore(policy, documentId, userId, bucket, filePath, fileName, env);
            var download := StorageDownload(bucket, filePath);
            var text := DownloadedText(fileName, env);
            && (env.download.Err? ==> r == Traced([download], Err(env.download.message)))
            && (env.download.Ok? && text.Err? ==> r == Traced([download], Err(text.message)))
            && (text.Ok? && Trim(text.value) != [] && env.embed.Err? ==>
                  r == Traced([download, Embed(text.value)], Err(env.embed.message)))
  {
    var text := DownloadedText(fileName, env);
    if text.Ok? {
      BlankIffAllSpace(text.value);
    }
  }

  /**
   * When the download, the parser, the embedding request and the insert all
   * succeed on text that is not blank, the stored row holds the extracted text
   * and exactly the vector the embedding request returned.
   */
  lemma SuccessStoresTextAndVector(policy: IdPolicy, documentId: string, userId: string, bucket: string,
                                   filePath: string, fileName: string, env: IngestEnv)
    requires env.download.Ok? && env.embed.Ok? && env.insert.Ok?
    requires ExtractFromBuffer(env.download.value, fileName, env.pdf, env.docx).Ok?
    requires Trim(ExtractFromBuffer(env.download.value, fileName, env.pdf, env.docx).value) != []
    ensures var r := ExtractAndStore(policy, documentId, userId, bucket, filePath, fileName, env);
            var t := ExtractFromBuffer(env.download.value, fileName, env.pdf, env.docx).value;
            var rec := EmbeddingRecord(userId, StoredDocumentId(policy, documentId, env.freshId), env.embed.value, t);
            r == Traced([StorageDownload(bucket, filePath), Embed(t), InsertEmbedding(EmbeddingsTable, rec)], Ok(Stored(rec)))
  {
    BlankIffAllSpace(ExtractFromBuffer(env.download.value, fileName, env.pdf, env.docx).value);
  }

  /** A call with the `document_id` of an inserted row replaced by `id`;
      every other call unchanged. */
  function WithDocumentId(c: Call, id: string): Call {
    if c.InsertEmbedding? then c.(record := c.record.(documentId := id)) else c
  }

  /** The two controllers store the same row except for its `document_id`:
      controllers/ keeps a non-empty caller id, src/ always uses the fresh
      one. */
  lemma PoliciesDifferOnlyInDocumentId(documentId: string, userId: string, bucket: string,
                                       filePath: string, fileName: string, env: IngestEnv)
    requires documentId != ""
    ensures var a := ExtractAndStore(RootControllerPolicy, documentId, userId, bucket, filePath, fileName, env);
            var b := ExtractAndStore(SrcControllerPolicy, documentId, userId, bucket, filePath, fileName, env);
            && |a.calls| == |b.calls|
            && (forall i :: 0 <= i < |a.calls| ==> a.calls[i] == WithDocumentId(b.calls[i], documentId))
            && (forall i :: 0 <= i < |b.calls| && b.calls[i].InsertEmbedding? ==> b.calls[i].record.documentId == env.freshId)
            && a.result.Ok? == b.result.Ok?
            && (a.result.Ok? ==> a.result.value.Stored? == b.result.value.Stored?)
            && (a.result.Ok? && a.result.value.Stored? ==>
                  a.result.value.record == b.result.value.record.(documentId := documentId)
                  && b.result.value.record.documentId == env.freshId)
  {
    var download := StorageDownload(bucket, filePath);
    var text := DownloadedText(fileName, env);
    if text.Ok? {
      var t := text.value;
      var a := IngestExtracted(RootControllerPolicy, documentId, userId, download, t, env);
      var b := IngestExtracted(SrcControllerPolicy, documentId, userId, download, t, env);
      assert ExtractAndStore(RootControllerPolicy, documentId, userId, bucket, filePath, fileName, env) == a;
      assert ExtractAndStore(SrcControllerPolicy, documentId, userId, bucket, filePath, fileName, env) == b;
      if !AllSpace(t) {
        EmbedAndStorePolicies(documentId, userId, t, env);
        assert a.result == EmbedAndStore(RootControllerPolicy, documentId, userId, t, env).result;
        assert b.result == EmbedAndStore(SrcControllerPolicy, documentId, userId, t, env).result;
      }
    }
  }

  /** The policies agree on everything but the stored id once a text is
      embedded. */
  lemma EmbedAndStorePolicies(documentId: string, userId: string, t: string, env: IngestEnv)
    requires documentId != ""
    ensures var a := EmbedAndStore(RootControllerPolicy, documentId, userId, t, env);
            var b := EmbedAndStore(SrcControllerPolicy, documentId, userId, t, env);
            && |a.calls| == |b.calls|
            && (forall i :: 0 <= i < |a.calls| ==> a.calls[i] == WithDocumentId(b.calls[i], documentId))
            && (forall i :: 0 <= i < |b.calls| && b.calls[i].InsertEmbedding? ==> b.calls[i].record.documentId == env.freshId)
            && a.result.Ok? == b.result.Ok?
            && (a.result.Ok? ==>
                  a.result.value.Stored? && b.result.value.Stored?
                  && a.result.value.record == b.result.value.record.(documentId := documentId)
                  && b.result.value.record.documentId == env.freshId)
  {
  }
}

=== FILE: model.dfy ===
/** The shared data model of the two document controllers: oracle replies,
    embeddings, stored records, registry documents, the external calls the
    controllers issue, and the JSON-shaped HTTP responses they send. */
module Model {

  datatype Option<+T> = None | Some(value: T)

  /** The reply of an external collaborator (storage, the embedding store,
      the embedding or completion service, a document parser): a value, or
      the error it raised or returned. */
  datatype Attempt<+T> = Ok(value: T) | Err(message: string)

  /** A byte buffer, seen through its UTF-8 decoding. */
  datatype Buffer = Buffer(utf8: string)

  /** What a vector column or an embedding response holds: an array of numbers,
      or something `Array.isArray` rejects (a string, null, an object). */
  datatype Embedding = Vector(xs: seq<real>) | NotAnArray

  /** A row of the `document_embeddings` table. */
  datatype EmbeddingRecord = EmbeddingRecord(userId: string, documentId: string, embedding: Embedding, text: string)

  /** An entry of the controllers' in-memory `documents` array. */
  datatype Document = Document(
    id: string,
    patientId: string,
    originalName: string,
    filename: string,
    path: string,
    url: string,
    size: nat,
    mimeType: string,
    uploadDate: string,
    status: string)

  const BucketName := "document"
  const FolderName := "Document"
  const EmbeddingsTable := "document_embeddings"

  /** Every call the controllers make to the world outside the process. */
  datatype Call =
    | StorageUpload(bucket: string, path: string, contentType: string)
    | StorageDownload(bucket: string, path: string)
    | StorageRemove(bucket: string, paths: seq<string>)
    | Embed(input: string)
    | InsertEmbedding(table: string, record: EmbeddingRecord)
    | SelectEmbeddings(table: string, userId: string)
    | Complete(query: string, context: string)

  predicate IsEmbeddingStoreCall(c: Call) {
    c.InsertEmbedding? || c.SelectEmbeddings?
  }

  /** A row as the query endpoint selects it: `document_id, embedding, text`. */
  datatype StoredRow = StoredRow(documentId: string, embedding: Embedding, text: string)

  /** The projection of a document sent back by the listing endpoint. */
  datatype Listing = Listing(id: string, name: string, size: nat, mimeType: string, uploadDate: string, status: string)

  datatype EntryStatus = EntrySuccess | EntryError

  /** One element of the upload endpoint's `documents` array; `url` is present
      on success entries only. */
  datatype UploadEntry = UploadEntry(
    id: string,
    name: string,
    size: nat,
    mimeType: string,
    uploadDate: string,
    status: EntryStatus,
    url: Option<string>)

  /** The JSON bodies the controllers send. */
  datatype Body =
    | Failure(message: string)                              // { success: false, message }
    | FailureWithDetails(message: string, details: string)  // { success: false, message, details }
    | FailureWithStack(message: string, stack: string)      // { success: false, message, stack }
    | Done(message: string)                                 // { success: true, message }
    | Uploaded(message: string, entries: seq<UploadEntry>)
    | Listed(listings: seq<Listing>)
    | Answered(response: string, error: Option<string>)     // { success: true, response [, error] }
  {
    predicate Success() {
      Done? || Uploaded? || Listed? || Answered?
    }
  }

  datatype Response = Json(status: nat, body: Body) | Redirect(url: string)

  /** What a request handler leaves behind: the response, the in-memory
      `documents` array afterwards, and the external calls made, in order. */
  datatype Handled = Handled(response: Response, documents: seq<Document>, calls: seq<Call>)
}

=== FILE: ranking.dfy ===
/** The ranking step of the query endpoint: every stored row is scored against
    the query vector, the rows are sorted by descending score with
    `Array.prototype.sort` (stable since ECMAScript 2019), and the first
    `limit` are kept. The sort is modelled on row positions: position `i` goes
    ahead of `j` when its score is higher, or equal and `i < j`. */
module Ranking {
  import opened Model
  import opened Text
  import opened Similarity

  /** Position `i` is ranked ahead of position `j`. */
  predicate Ahead(s: seq<real>, i: nat, j: nat)
    requires i < |s| && j < |s|
  {
    s[i] > s[j] || (s[i] == s[j] && i < j)
  }

  predicate InRange(s: seq<real>, order: seq<nat>) {
    forall p :: 0 <= p < |order| ==> order[p] < |s|
  }

  /** Every earlier position in `order` is ranked ahead of every later one. */
  predicate Sorted(s: seq<real>, order: seq<nat>) {
    InRange(s, order) && forall p, q :: 0 <= p < q < |order| ==> Ahead(s, order[p], order[q])
  }

  /** What a stable descending sort of the scores produces: a permutation of
      the positions whose scores never increase and in which equal scores keep
      their input order. */
  predicate IsStableDescending(s: seq<real>, order: seq<nat>) {
    && InRange(s, order)
    && |order| == |s|
    && (forall i :: 0 <= i < |s| ==> i in order)
    && (forall p, q :: 0 <= p < q < |order| ==> s[order[p]] >= s[order[q]])
    && (forall p, q :: 0 <= p < q < |order| && s[order[p]] == s[order[q]] ==> order[p] < order[q])
  }

  /** Inserting position `k` before the first entry it is ranked ahead of. */
  function Insert(s: seq<real>, k: nat, order: seq<nat>): (r: seq<nat>)
    requires k < |s| && InRange(s, order)
    ensures |r| == |order| + 1 && InRange(s, r)
    ensures forall i :: i in r <==> i == k || i in order
    ensures Sorted(s, order) && k !in order ==> Sorted(s, r)
  {
    if order == [] then [k]
    else if Ahead(s, k, order[0]) then
      var r := [k] + order;
      assert forall q :: 0 < q < |r| ==> r[q] == order[q - 1];
      r
    else
      var rest := Insert(s, k, order[1..]);
      var r := [order[0]] + rest;
      assert order == [order[0]] + order[1..];
      assert forall q :: 0 < q < |r| ==> r[q] == rest[q - 1];
      InsertBehind(s, k, order, rest);
      r
  }

  /** Keeping the head in front of the recursive insertion stays sorted:
      the head is ahead of every entry of the tail and, since `k` is not
      ahead of it, of `k` as well. */
  lemma InsertBehind(s: seq<real>, k: nat, order: seq<nat>, rest: seq<nat>)
    requires k < |s| && InRange(s, order) && order != [] && !Ahead(s, k, order[0])
    requires InRange(s, rest)
    requires forall i :: i in rest <==> i == k || i in order[1..]
    requires Sorted(s, order[1..]) && k !in order[1..] ==> Sorted(s, rest)
    ensures Sorted(s, order) && k !in order ==> Sorted(s, [order[0]] + rest)
  {
    if Sorted(s, order) && k !in order {
      assert order == [order[0]] + order[1..];
      assert Sorted(s, order[1..]) by {
        forall p, q | 0 <= p < q < |order[1..]| ensures Ahead(s, order[1..][p], order[1..][q]) {
          assert Ahead(s, order[p + 1], order[q + 1]);
        }
      }
      forall q | 0 <= q < |rest| ensures Ahead(s, order[0], rest[q]) {
        assert rest[q] in rest;
        if rest[q] != k {
          var p :| 0 <= p < |order[1..]| && order[1..][p] == rest[q];
          assert Ahead(s, order[0], order[p + 1]);
        }
      }
      var r := [order[0]] + rest;
      forall p, q | 0 <= p < q < |r| ensures Ahead(s, r[p], r[q]) {
        assert r[q] == rest[q - 1];
        if p > 0 {
          assert r[p] == rest[p - 1];
        }
      }
    }
  }

  /** Positions `0 .. n-1`, sorted by insertion. */
  function SortPrefix(s: seq<real>, n: nat): (r: seq<nat>)
    requires n <= |s|
    ensures |r| == n && Sorted(s, r)
    ensures forall i: nat :: i in r <==> i < n
  {
    if n == 0 then []
    else
      var prev := SortPrefix(s, n - 1);
      assert n - 1 !in prev;
      Insert(s, n - 1, prev)
  }

  /** The ranked order of all positions. */
  function Order(s: seq<real>): (r: seq<nat>)
    ensures IsStableDescending(s, r)
  {
    var r := SortPrefix(s, |s|);
    assert forall p, q :: 0 <= p < q < |r| ==> Ahead(s, r[p], r[q]);
    r
  }

  /** A stable descending order is sorted in the `Ahead` sense. */
  lemma StableIsSorted(s: seq<real>, order: seq<nat>)
    requires IsStableDescending(s, order)
    ensures Sorted(s, order)
  {
    forall p, q | 0 <= p < q < |order| ensures Ahead(s, order[p], order[q]) {
      assert s[order[p]] >= s[order[q]];
    }
  }

  /** Two sorted orders over the same positions are the same order. */
  lemma {:induction false} SortedUnique(s: seq<real>, x: seq<nat>, y: seq<nat>)
    requires Sorted(s, x) && Sorted(s, y)
    requires forall i :: i in x <==> i in y
    ensures x == y
  {
    if x != [] {
      assert x[0] in x;
    }
    if y != [] {
      assert y[0] in y;
    }
    if x != [] && y != [] {
      var i :| 0 <= i < |y| && y[i] == x[0];
      var j :| 0 <= j < |x| && x[j] == y[0];
      assert x[0] == y[0];
      assert x == [x[0]] + x[1..];
      assert y == [y[0]] + y[1..];
      forall k: nat ensures k in x[1..] <==> k in y[1..] {
        if k in x[1..] {
          var p :| 0 <= p < |x[1..]| && x[1..][p] == k;
          assert Ahead(s, x[0], x[p + 1]);
          assert k in x && k != y[0];
        }
        if k in y[1..] {
          var p :| 0 <= p < |y[1..]| && y[1..][p] == k;
          assert Ahead(s, y[0], y[p + 1]);
          assert k in y && k != x[0];
        }
      }
      assert Sorted(s, x[1..]) by {
        forall p, q | 0 <= p < q < |x[1..]| ensures Ahead(s, x[1..][p], x[1..][q]) {
          assert Ahead(s, x[p + 1], x[q + 1]);
        }
      }
      assert Sorted(s, y[1..]) by {
        forall p, q | 0 <= p < q < |y[1..]| ensures Ahead(s, y[1..][p], y[1..][q]) {
          assert Ahead(s, y[p + 1], y[q + 1]);
        }
      }
      SortedUnique(s, x[1..], y[1..]);
    }
  }

  /** Any stable descending sort of the scores yields exactly `Order`; in
      particular the engine's sort does. */
  lemma StableDescendingIsOrder(s: seq<real>, order: seq<nat>)
    requires IsStableDescending(s, order)
    ensures order == Order(s)
  {
    StableIsSorted(s, order);
    StableIsSorted(s, Order(s));
    SortedUnique(s, order, Order(s));
  }

  function Min(a: nat, b: nat): nat {
    if a <= b then a else b
  }

  /** `similarities.sort(...).slice(0, limit)`, on positions. */
  function Top(s: seq<real>, limit: nat): (r: seq<nat>)
    ensures |r| == Min(limit, |s|)
    ensures forall p :: 0 <= p < |r| ==> r[p] < |s|
    ensures forall p, q :: 0 <= p < q < |r| ==> r[p] != r[q]
    ensures forall p, q :: 0 <= p < q < |r| ==> s[r[p]] >= s[r[q]]
    ensures forall p, q :: 0 <= p < q < |r| && s[r[p]] == s[r[q]] ==> r[p] < r[q]
    ensures forall p, j :: 0 <= p < |r| && 0 <= j < |s| && j !in r ==> Ahead(s, r[p], j)
  {
    var order := Order(s);
    StableIsSorted(s, order);
    var r := order[..Min(limit, |s|)];
    forall p, j | 0 <= p < |r| && 0 <= j < |s| && j !in r ensures Ahead(s, r[p], j) {
      assert j in order;
      var q :| 0 <= q < |order| && order[q] == j;
      assert Ahead(s, order[p], order[q]);
    }
    r
  }

  /** The top `limit` of any stable descending sort are the ones `Top` picks. */
  lemma TopIsSlicedSort(s: seq<real>, order: seq<nat>, limit: nat)
    requires IsStableDescending(s, order)
    ensures Top(s, limit) == order[..Min(limit, |s|)]
  {
    StableDescendingIsOrder(s, order);
  }

  /** Scores [0.9, 0.1, 0.9, 0.5, 0.0] with limit 3 select positions 0, 2, 3:
      the tie between 0 and 2 keeps input order. */
  lemma TopExample(s: seq<real>)
    requires s == [0.9, 0.1, 0.9, 0.5, 0.0]
    ensures Top(s, 3) == [0, 2, 3]
  {
    var order: seq<nat> := [0, 2, 3, 1, 4];
    assert forall i :: 0 <= i < |s| ==> i in order by {
      assert order[0] == 0 && order[3] == 1 && order[1] == 2 && order[2] == 3 && order[4] == 4;
    }
    TopIsSlicedSort(s, order, 3);
  }

  /** One score per stored row, in row order: rows whose vector is not an
      array or has the wrong length score 0 and stay in the list. */
  function Scores(query: Embedding, rows: seq<StoredRow>, sqrt: real -> real): (r: seq<real>)
    ensures |r| == |rows|
    ensures forall i :: 0 <= i < |rows| ==> r[i] == Cosine(query, rows[i].embedding, sqrt)
  {
    seq(|rows|, i requires 0 <= i < |rows| => Cosine(query, rows[i].embedding, sqrt))
  }

  lemma MismatchedRowScoresZero(query: Embedding, rows: seq<StoredRow>, sqrt: real -> real, i: nat)
    requires i < |rows|
    requires query.NotAnArray? || rows[i].embedding.NotAnArray? || |query.xs| != |rows[i].embedding.xs|
    ensures |Scores(query, rows, sqrt)| == |rows|
    ensures Scores(query, rows, sqrt)[i] == 0.0
  {
  }

  /** The rows the synthesis step sees, best first. */
  function TopRows(query: Embedding, rows: seq<StoredRow>, limit: nat, sqrt: real -> real): (r: seq<StoredRow>)
    ensures |r| == Min(limit, |rows|)
    ensures forall p :: 0 <= p < |r| ==> r[p] in rows
  {
    var top := Top(Scores(query, rows, sqrt), limit);
    seq(|top|, p requires 0 <= p < |top| => rows[top[p]])
  }

  /** The best-first row list has non-increasing scores, and every row left
      out scores no higher than any row kept. */
  lemma TopRowsAreBest(query: Embedding, rows: seq<StoredRow>, limit: nat, sqrt: real -> real)
    ensures var s := Scores(query, rows, sqrt);
            var top := Top(s, limit);
            && TopRows(query, rows, limit, sqrt) == seq(|top|, p requires 0 <= p < |top| => rows[top[p]])
            && (forall p, q :: 0 <= p < q < |top| ==>
                  Cosine(query, rows[top[p]].embedding, sqrt) >= Cosine(query, rows[top[q]].embedding, sqrt))
            && (forall p, j :: 0 <= p < |top| && 0 <= j < |rows| && j !in top ==>
                  Cosine(query, rows[top[p]].embedding, sqrt) >= Cosine(query, rows[j].embedding, sqrt))
  {
  }

  /** `topResults.map(result => result.text).join('\n\n')`. */
  function Context(top: seq<StoredRow>): string {
    Join(seq(|top|, p requires 0 <= p < |top| => top[p].text), "\n\n")
  }
}

=== FILE: registry.dfy ===
/** The controllers' in-memory `documents` array and the handlers that only
    read it or remove from it: the upload `fileFilter`, `getPatientDocuments`,
    `downloadDocument` and `deleteDocument`. */
module Registry {
  import opened Model
  import opened Text
  import opened Extraction

  const AllowedMimeTypes: seq<string> := [
    "application/pdf",
    "application/msword",
    "application/" + "vnd.openxmlformats-officedocument.wordprocessingml.document",
    "text/plain",
    "image/jpeg",
    "image/jpg",
    "image/png",
    "image/gif",
    "application/vnd.ms-excel",
    "application/" + "vnd.openxmlformats-officedocument.spreadsheetml.sheet"
  ]

  const InvalidTypeMessage := "Invalid file type. Only PDF, DOC, DOCX, TXT, JPG, PNG, GIF, XLS, XLSX files are allowed."

  /** The multer `fileFilter` callback: `cb(null, true)` or `cb(error, false)`. */
  datatype FilterDecision = Accept | Reject(error: string)

  function FileFilter(mimeType: string): (r: FilterDecision)
    ensures r.Accept? <==> exists k :: 0 <= k < |AllowedMimeTypes| && AllowedMimeTypes[k] == mimeType
    ensures r.Reject? ==> r.error == InvalidTypeMessage
  {
    if mimeType in AllowedMimeTypes then Accept else Reject(InvalidTypeMessage)
  }

  /** Markup is rejected at upload although the extractor handles `.html` and
      `.htm` by name, so the markup branch is only reached for files stored
      under such a name with an accepted MIME type. */
  lemma HtmlIsRejected(stem: string)
    ensures FileFilter("text/html") == Reject(InvalidTypeMessage)
    ensures FormatOf(Extension(stem + ".html")) == Markup
  {
    ExtensionOfDotted(stem, "html");
    assert stem + "." + "html" == stem + ".html";
    assert Lower("html") == "html";
    forall k | 0 <= k < |AllowedMimeTypes| ensures AllowedMimeTypes[k] != "text/html" {
      assert |AllowedMimeTypes[k]| != 9 || AllowedMimeTypes[k][5] != 'h';
    }
  }

  /** Each of the ten listed types is accepted. */
  lemma ListedTypesAccepted(k: nat)
    requires k < |AllowedMimeTypes|
    ensures FileFilter(AllowedMimeTypes[k]) == Accept
  {
  }

  /** The projection `getPatientDocuments` sends for one document. */
  function ListingOf(d: Document): Listing {
    Listing(d.id, d.originalName, d.size, d.mimeType, d.uploadDate, d.status)
  }

  /** `documents.filter(doc => doc.patientId === patientId).map(...)`. */
  function ForPatient(docs: seq<Document>, patientId: string): (r: seq<Listing>)
    ensures |r| <= |docs|
  {
    if docs == [] then []
    else
      var last := docs[|docs| - 1];
      ForPatient(docs[..|docs| - 1], patientId) + (if last.patientId == patientId then [ListingOf(last)] else [])
  }

  /** The positions of the documents owned by `patientId`, in increasing order. */
  function OwnedPositions(docs: seq<Document>, patientId: string): (m: seq<nat>)
    ensures forall p :: 0 <= p < |m| ==> m[p] < |docs| && docs[m[p]].patientId == patientId
    ensures forall p, q :: 0 <= p < q < |m| ==> m[p] < m[q]
    ensures forall i :: 0 <= i < |docs| && docs[i].patientId == patientId ==> i in m
  {
    if docs == [] then []
    else
      var n := |docs| - 1;
      var prev := OwnedPositions(docs[..n], patientId);
      prev + (if docs[n].patientId == patientId then [n] else [])
  }

  /** The listing is exactly the owned documents, projected, in insertion
      order. */
  lemma {:induction false} ForPatientIsOwnedInOrder(docs: seq<Document>, patientId: string)
    ensures var m := OwnedPositions(docs, patientId);
            ForPatient(docs, patientId) == seq(|m|, p requires 0 <= p < |m| => ListingOf(docs[m[p]]))
  {
    if docs != [] {
      var n := |docs| - 1;
      ForPatientIsOwnedInOrder(docs[..n], patientId);
    }
  }

  /** Appending a document extends the listing of its owner by its projection
      and leaves every other patient's listing unchanged. */
  lemma ForPatientAppend(docs: seq<Document>, d: Document, patientId: string)
    ensures ForPatient(docs + [d], patientId)
            == ForPatient(docs, patientId) + (if d.patientId == patientId then [ListingOf(d)] else [])
  {
    assert (docs + [d])[..|docs|] == docs;
  }

  /** `getPatientDocuments`. */
  function ListDocuments(docs: seq<Document>, patientId: string): (r: Response)
    ensures patientId == "" <==> r == Json(400, Failure("Patient ID is required."))
    ensures patientId != "" ==> r == Json(200, Listed(ForPatient(docs, patientId)))
  {
    if patientId == "" then Json(400, Failure("Patient ID is required."))
    else Json(200, Listed(ForPatient(docs, patientId)))
  }

  /** `documents.findIndex(doc => doc.id === id)`, or `None` for -1. */
  function FindById(docs: seq<Document>, id: string): (r: Option<nat>)
    ensures r.Some? ==> r.value < |docs| && docs[r.value].id == id
    ensures forall j :: 0 <= j < |docs| && (r.None? || j < r.value) ==> docs[j].id != id
  {
    if docs == [] then None
    else if docs[0].id == id then Some(0)
    else match FindById(docs[1..], id)
      case None => None
      case Some(k) => Some(k + 1)
  }

  /** `downloadDocument`: the first document with the id, redirected to its
      public URL. */
  function Download(docs: seq<Document>, documentId: string): (r: Response)
    ensures documentId == "" ==> r == Json(400, Failure("Document ID is required."))
    ensures r.Redirect? <==> exists i :: 0 <= i < |docs| && documentId != "" && docs[i].id == documentId && docs[i].url != "" && (forall j :: 0 <= j < i ==> docs[j].id != documentId)
    ensures forall i :: 0 <= i < |docs| && documentId != "" && docs[i].id == documentId
                        && (forall j :: 0 <= j < i ==> docs[j].id != documentId) ==>
              r == (if docs[i].url == "" then Json(404, Failure("File URL not found.")) else Redirect(docs[i].url))
    ensures documentId != "" && (forall i :: 0 <= i < |docs| ==> docs[i].id != documentId) ==> r == Json(404, Failure("Document not found."))
  {
    if documentId == "" then Json(400, Failure("Document ID is required."))
    else match FindById(docs, documentId)
      case None => Json(404, Failure("Document not found."))
      case Some(i) =>
        if docs[i].url == "" then Json(404, Failure("File URL not found."))
        else Redirect(docs[i].url)
  }

  /** `deleteDocument`. `removal` is what the storage `remove` call returned
      or threw; the handler logs it and carries on either way. */
  function Delete(docs: seq<Document>, documentId: string, removal: Attempt<()>): (h: Handled)
    ensures documentId == "" ==> h == Handled(Json(400, Failure("Document ID is required.")), docs, [])
    ensures (documentId != "" && forall i :: 0 <= i < |docs| ==> docs[i].id != documentId)
            ==> h == Handled(Json(404, Failure("Document not found.")), docs, [])
    ensures h.response.Json? && (h.response.status == 200 <==> documentId != "" && exists i :: 0 <= i < |docs| && docs[i].id == documentId)
    ensures forall c :: c in h.calls ==> !IsEmbeddingStoreCall(c)
  {
    if documentId == "" then Handled(Json(400, Failure("Document ID is required.")), docs, [])
    else match FindById(docs, documentId)
      case None => Handled(Json(404, Failure("Document not found.")), docs, [])
      case Some(i) =>
        Handled(Json(200, Done("Document deleted successfully.")),
                docs[..i] + docs[i + 1..],
                [StorageRemove(BucketName, [docs[i].path])])
  }

  /** A successful delete removes exactly the first document with the id:
      the documents before it and after it keep their order, and the storage
      object removed is that document's path. */
  lemma DeleteRemovesFirstMatch(docs: seq<Document>, documentId: string, removal: Attempt<()>, i: nat)
    requires documentId != "" && i < |docs| && docs[i].id == documentId
    requires forall j :: 0 <= j < i ==> docs[j].id != documentId
    ensures var h := Delete(docs, documentId, removal);
            && |h.documents| == |docs| - 1
            && (forall j :: 0 <= j < i ==> h.documents[j] == docs[j])
            && (forall j :: i < j < |docs| ==> h.documents[j - 1] == docs[j])
            && h.calls == [StorageRemove(BucketName, [docs[i].path])]
  {
    var r := FindById(docs, documentId);
    assert r.Some? && r.value == i;
  }

  /** A second document with the same id survives the delete. */
  lemma DeleteKeepsLaterDuplicates(docs: seq<Document>, documentId: string, removal: Attempt<()>, i: nat, j: nat)
    requires documentId != "" && i < j < |docs| && docs[i].id == documentId && docs[j].id == documentId
    ensures docs[j] in Delete(docs, documentId, removal).documents
  {
    var k := FindById(docs, documentId).value;
    assert k <= i;
    assert (docs[..k] + docs[k + 1..])[j - 1] == docs[j];
  }

  /** Once the only document with an id is deleted, downloading it answers
      "Document not found.". */
  lemma DeletedIsNotDownloadable(docs: seq<Document>, documentId: string, removal: Attempt<()>, i: nat)
    requires documentId != "" && i < |docs| && docs[i].id == documentId
    requires forall j :: 0 <= j < |docs| && j != i ==> docs[j].id != documentId
    ensures Download(Delete(docs, documentId, removal).documents, documentId) == Json(404, Failure("Document not found."))
  {
    DeleteRemovesFirstMatch(docs, documentId, removal, i);
    var after := Delete(docs, documentId, removal).documents;
    forall k | 0 <= k < |after| ensures after[k].id != documentId {
      if k < i {
        assert after[k] == docs[k];
      } else {
        assert after[k] == docs[k + 1];
      }
    }
  }

  /** The storage reply has no influence on the outcome of a delete. */
  lemma DeleteIgnoresStorageReply(docs: seq<Document>, documentId: string, a: Attempt<()>, b: Attempt<()>)
    ensures Delete(docs, documentId, a) == Delete(docs, documentId, b)
  {
  }
}

=== FILE: similarity.dfy ===
/** `calculateCosineSimilarity`. Vector entries are reals; `Math.sqrt` is a
    parameter, and the lemmas that need its behaviour state that behaviour at
    the points they use. */
module Similarity {
  import opened Model

  /** The dot product, accumulated over the common length. */
  function Dot(a: seq<real>, b: seq<real>): real
    requires |a| == |b|
  {
    if a == [] then 0.0 else a[0] * b[0] + Dot(a[1..], b[1..])
  }

  /** The sum of squares `normA` holds before the square root. */
  function SumSquares(a: seq<real>): (r: real)
    ensures r >= 0.0
  {
    if a == [] then 0.0 else a[0] * a[0] + SumSquares(a[1..])
  }

  /** `calculateCosineSimilarity(a, b)`: 0 unless both are arrays of one
      length whose norms are both non-zero; otherwise the dot product over the
      product of the norms. */
  function Cosine(a: Embedding, b: Embedding, sqrt: real -> real): (r: real)
    ensures a.NotAnArray? || b.NotAnArray? ==> r == 0.0
    ensures a.Vector? && b.Vector? && |a.xs| != |b.xs| ==> r == 0.0
    ensures a.Vector? && sqrt(SumSquares(a.xs)) == 0.0 ==> r == 0.0
    ensures b.Vector? && sqrt(SumSquares(b.xs)) == 0.0 ==> r == 0.0
  {
    if a.NotAnArray? || b.NotAnArray? || |a.xs| != |b.xs| then 0.0
    else
      var normA := sqrt(SumSquares(a.xs));
      var normB := sqrt(SumSquares(b.xs));
      if normA == 0.0 || normB == 0.0 then 0.0
      else Dot(a.xs, b.xs) / (normA * normB)
  }

  lemma {:induction false} DotCommutes(a: seq<real>, b: seq<real>)
    requires |a| == |b|
    ensures Dot(a, b) == Dot(b, a)
  {
    if a != [] {
      DotCommutes(a[1..], b[1..]);
    }
  }

  lemma {:induction false} DotSelf(a: seq<real>)
    ensures Dot(a, a) == SumSquares(a)
  {
    if a != [] {
      DotSelf(a[1..]);
    }
  }

  /** Similarity is symmetric, for any square root. */
  lemma CosineSymmetric(a: Embedding, b: Embedding, sqrt: real -> real)
    ensures Cosine(a, b, sqrt) == Cosine(b, a, sqrt)
  {
    if a.Vector? && b.Vector? && |a.xs| == |b.xs| {
      DotCommutes(a.xs, b.xs);
      var na, nb := sqrt(SumSquares(a.xs)), sqrt(SumSquares(b.xs));
      assert na * nb == nb * na;
    }
  }

  /** An all-zero vector is orthogonal to everything. */
  lemma {:induction false} ZeroSumSquares(a: seq<real>)
    requires forall i :: 0 <= i < |a| ==> a[i] == 0.0
    ensures SumSquares(a) == 0.0
  {
    if a != [] {
      ZeroSumSquares(a[1..]);
    }
  }

  lemma ZeroVectorScoresZero(a: seq<real>, b: Embedding, sqrt: real -> real)
    requires forall i :: 0 <= i < |a| ==> a[i] == 0.0
    requires sqrt(0.0) == 0.0
    ensures Cosine(Vector(a), b, sqrt) == 0.0
  {
    ZeroSumSquares(a);
  }

  /** A vector with a non-zero norm is fully similar to itself. */
  lemma SelfSimilarity(a: seq<real>, sqrt: real -> real)
    requires SumSquares(a) != 0.0
    requires sqrt(SumSquares(a)) * sqrt(SumSquares(a)) == SumSquares(a)
    ensures Cosine(Vector(a), Vector(a), sqrt) == 1.0
  {
    DotSelf(a);
    var n := sqrt(SumSquares(a));
    assert n != 0.0;
    assert SumSquares(a) / (n * n) == 1.0;
  }

  /** The Cauchy-Schwarz inequality: `Dot(a, b)^2 <= |a|^2 |b|^2`. */
  lemma {:induction false} CauchySchwarz(a: seq<real>, b: seq<real>)
    requires |a| == |b|
    ensures Dot(a, b) * Dot(a, b) <= SumSquares(a) * SumSquares(b)
  {
    if a != [] {
      var n := |a| - 1;
      var a', b' := a[..n], b[..n];
      var x, y := a[n], b[n];
      SplitLast(a, b);
      CauchySchwarz(a', b');
      Mixed(a', b', x, y);
      Expand(SumSquares(a'), SumSquares(b'), Dot(a', b'), x, y);
    }
  }

  lemma Expand(A: real, B: real, D: real, x: real, y: real)
    ensures (A + x * x) * (B + y * y) - (D + x * y) * (D + x * y)
            == (A * B - D * D) + (x * x * B + y * y * A - 2.0 * x * y * D)
  {
  }

  /** Peeling the last entry off both vectors. */
  lemma SplitLast(a: seq<real>, b: seq<real>)
    requires |a| == |b| && a != []
    ensures Dot(a, b) == Dot(a[..|a| - 1], b[..|b| - 1]) + a[|a| - 1] * b[|b| - 1]
    ensures SumSquares(a) == SumSquares(a[..|a| - 1]) + a[|a| - 1] * a[|a| - 1]
    ensures SumSquares(b) == SumSquares(b[..|b| - 1]) + b[|b| - 1] * b[|b| - 1]
  {
    DotSplitLast(a, b);
    SquaresSplitLast(a);
    SquaresSplitLast(b);
  }

  lemma {:induction false} DotSplitLast(a: seq<real>, b: seq<real>)
    requires |a| == |b| && a != []
    ensures Dot(a, b) == Dot(a[..|a| - 1], b[..|b| - 1]) + a[|a| - 1] * b[|b| - 1]
  {
    var n := |a| - 1;
    if n > 0 {
      DotSplitLast(a[1..], b[1..]);
      assert a[1..][..n - 1] == a[..n][1..];
      assert b[1..][..n - 1] == b[..n][1..];
      assert a[..n][0] == a[0] && b[..n][0] == b[0];
      assert a[1..][n - 1] == a[n] && b[1..][n - 1] == b[n];
    } else {
      assert a[..n] == [] && b[..n] == [];
    }
  }

  lemma {:induction false} SquaresSplitLast(a: seq<real>)
    requires a != []
    ensures SumSquares(a) == SumSquares(a[..|a| - 1]) + a[|a| - 1] * a[|a| - 1]
  {
    var n := |a| - 1;
    if n > 0 {
      SquaresSplitLast(a[1..]);
      assert a[1..][..n - 1] == a[..n][1..];
      assert a[..n][0] == a[0];
      assert a[1..][n - 1] == a[n];
    } else {
      assert a[..n] == [];
    }
  }

  /** `x^2 |b|^2 + y^2 |a|^2 - 2xy Dot(a, b)` is the sum of the squares of
      `x b_i - y a_i`, hence never negative. */
  lemma {:induction false} Mixed(a: seq<real>, b: seq<real>, x: real, y: real)
    requires |a| == |b|
    ensures x * x * SumSquares(b) + y * y * SumSquares(a) - 2.0 * x * y * Dot(a, b) >= 0.0
  {
    MixedSum(a, b, x, y);
  }

  function Combine(a: seq<real>, b: seq<real>, x: real, y: real): (r: seq<real>)
    requires |a| == |b|
    ensures |r| == |a|
  {
    if a == [] then [] else [x * b[0] - y * a[0]] + Combine(a[1..], b[1..], x, y)
  }

  lemma {:induction false} MixedSum(a: seq<real>, b: seq<real>, x: real, y: real)
    requires |a| == |b|
    ensures SumSquares(Combine(a, b, x, y)) == x * x * SumSquares(b) + y * y * SumSquares(a) - 2.0 * x * y * Dot(a, b)
  {
    if a != [] {
      MixedSum(a[1..], b[1..], x, y);
      var c := Combine(a, b, x, y);
      assert c[1..] == Combine(a[1..], b[1..], x, y);
      var p, q := a[0], b[0];
      assert (x * q - y * p) * (x * q - y * p) == x * x * (q * q) + y * y * (p * p) - 2.0 * x * y * (p * q);
    }
  }

  /** With a true square root, a similarity is always in [-1, 1]. */
  lemma CosineBounded(a: Embedding, b: Embedding, sqrt: real -> real)
    requires a.Vector? && b.Vector? ==>
               sqrt(SumSquares(a.xs)) >= 0.0 && sqrt(SumSquares(a.xs)) * sqrt(SumSquares(a.xs)) == SumSquares(a.xs)
               && sqrt(SumSquares(b.xs)) >= 0.0 && sqrt(SumSquares(b.xs)) * sqrt(SumSquares(b.xs)) == SumSquares(b.xs)
    ensures -1.0 <= Cosine(a, b, sqrt) <= 1.0
  {
    if a.Vector? && b.Vector? && |a.xs| == |b.xs| {
      var na, nb := sqrt(SumSquares(a.xs)), sqrt(SumSquares(b.xs));
      if na != 0.0 && nb != 0.0 {
        var d := Dot(a.xs, b.xs);
        assert Cosine(a, b, sqrt) == d / (na * nb);
        CauchySchwarz(a.xs, b.xs);
        QuotientBounded(d, na, nb, SumSquares(a.xs), SumSquares(b.xs));
      }
    }
  }

  /** The arithmetic core of the bound: `d^2 <= A B` with `A`, `B` the squares
      of the positive norms puts `d / (na nb)` in [-1, 1]. */
  lemma QuotientBounded(d: real, na: real, nb: real, A: real, B: real)
    requires na > 0.0 && nb > 0.0 && na * na == A && nb * nb == B
    requires d * d <= A * B
    ensures -1.0 <= d / (na * nb) <= 1.0
  {
    var m := na * nb;
    PositiveProduct(na, nb);
    SquareOfProduct(na, nb);
    Bounded(d, m);
  }

  lemma PositiveProduct(x: real, y: real)
    requires x > 0.0 && y > 0.0
    ensures x * y > 0.0
  {
  }

  lemma SquareOfProduct(x: real, y: real)
    ensures (x * x) * (y * y) == (x * y) * (x * y)
  {
  }

  lemma Bounded(d: real, m: real)
    requires m > 0.0 && d * d <= m * m
    ensures -1.0 <= d / m <= 1.0
  {
    WithinSquare(d, m);
    assert d / m <= m / m;
    assert -m / m <= d / m;
  }

  lemma WithinSquare(d: real, m: real)
    requires m > 0.0 && d * d <= m * m
    ensures -m <= d <= m
  {
    var a := if d >= 0.0 then d else -d;
    assert a * a == d * d;
    assert (m - a) * (m + a) == m * m - a * a;
    NonNegativeFactor(m - a, m + a);
  }

  lemma NonNegativeFactor(x: real, k: real)
    requires k > 0.0 && x * k >= 0.0
    ensures x >= 0.0
  {
  }
}

=== FILE: text.dfy ===
/** String helpers with JavaScript's meaning: the `\s` class (which is also the
    set `String.prototype.trim` strips), `trim`, `split`/`join`, `toLowerCase`
    on ASCII letters, and case-sensitive `includes`. */
module Text {

  /** ECMAScript WhiteSpace and LineTerminator code points. */
  predicate IsSpace(c: char) {
    || c == '\t' || c == '\n' || c == '\U{000B}' || c == '\U{000C}' || c == '\r' || c == ' '
    || c == '\U{00A0}' || c == '\U{1680}' || ('\U{2000}' <= c <= '\U{200A}')
    || c == '\U{2028}' || c == '\U{2029}' || c == '\U{202F}' || c == '\U{205F}'
    || c == '\U{3000}' || c == '\U{FEFF}'
  }

  predicate AllSpace(s: string) {
    forall i :: 0 <= i < |s| ==> IsSpace(s[i])
  }

  /** No whitespace character at either end. */
  predicate NoEdgeSpace(s: string) {
    s == [] || (!IsSpace(s[0]) && !IsSpace(s[|s| - 1]))
  }

  /** No two adjacent whitespace characters. */
  predicate NoDoubleSpace(s: string) {
    forall i :: 0 < i < |s| ==> !(IsSpace(s[i - 1]) && IsSpace(s[i]))
  }

  function TrimStart(s: string): (r: string)
    ensures |r| <= |s| && r == s[|s| - |r|..]
    ensures AllSpace(s[..|s| - |r|])
    ensures r == [] || !IsSpace(r[0])
  {
    if s != [] && IsSpace(s[0]) then TrimStart(s[1..]) else s
  }

  function TrimEnd(s: string): (r: string)
    ensures |r| <= |s| && r == s[..|r|]
    ensures AllSpace(s[|r|..])
    ensures r == [] || !IsSpace(r[|r| - 1])
  {
    if s != [] && IsSpace(s[|s| - 1]) then TrimEnd(s[..|s| - 1]) else s
  }

  /** `String.prototype.trim`: whitespace dropped from both ends. */
  function Trim(s: string): (r: string)
    ensures NoEdgeSpace(r) && |r| <= |s|
  {
    TrimEnd(TrimStart(s))
  }

  /** The trimmed text is a slice of `s`, and everything dropped on either
      side is whitespace. */
  lemma TrimIsSlice(s: string) returns (a: nat, b: nat)
    ensures a <= b <= |s| && Trim(s) == s[a..b]
    ensures AllSpace(s[..a]) && AllSpace(s[b..])
  {
    var t := TrimStart(s);
    var r := TrimEnd(t);
    a, b := |s| - |t|, |s| - |t| + |r|;
    assert r == s[a..b];
    assert s[b..] == t[|r|..];
  }

  /** `!s.trim()`: the text is blank exactly when it is whitespace only. */
  lemma {:induction false} BlankIffAllSpace(s: string)
    ensures Trim(s) == [] <==> AllSpace(s)
  {
    if !AllSpace(s) {
      var i :| 0 <= i < |s| && !IsSpace(s[i]);
      var t := TrimStart(s);
      assert s[|s| - |t|..][i - (|s| - |t|)] == s[i];
    }
  }

  function LowerChar(c: char): char {
    if 'A' <= c <= 'Z' then (c as int + 32) as char else c
  }

  /** `toLowerCase` on ASCII letters; every other character is kept. */
  function Lower(s: string): (r: string)
    ensures |r| == |s|
    ensures forall i :: 0 <= i < |s| ==> r[i] == LowerChar(s[i])
  {
    seq(|s|, i requires 0 <= i < |s| => LowerChar(s[i]))
  }

  /** `s.split(sep)`: the maximal separator-free pieces, in order. */
  function Split(s: string, sep: char): (parts: seq<string>)
    ensures |parts| >= 1
    ensures forall i :: 0 <= i < |parts| ==> sep !in parts[i]
  {
    if s == [] then [[]]
    else
      var rest := Split(s[1..], sep);
      if s[0] == sep then [[]] + rest
      else [[s[0]] + rest[0]] + rest[1..]
  }

  /** `parts.join(sep)`. */
  function Join(parts: seq<string>, sep: string): string {
    if parts == [] then []
    else if |parts| == 1 then parts[0]
    else parts[0] + sep + Join(parts[1..], sep)
  }

  /** Joining the pieces of a split with the same separator gives back the text. */
  lemma {:induction false} JoinSplit(s: string, sep: char)
    ensures Join(Split(s, sep), [sep]) == s
  {
    if s != [] {
      JoinSplit(s[1..], sep);
      var rest := Split(s[1..], sep);
      if s[0] != sep {
        if |rest| == 1 {
          assert Split(s, sep) == [[s[0]] + rest[0]];
        } else {
          assert Split(s, sep)[1..] == rest[1..];
        }
      } else {
        assert Split(s, sep)[1..] == rest;
      }
    }
  }

  /** The text after the last `sep`, or all of `s` when `sep` does not occur. */
  function AfterLast(s: string, sep: char): (r: string)
    ensures sep !in r
    ensures |r| <= |s| && r == s[|s| - |r|..]
    ensures |r| < |s| ==> s[|s| - |r| - 1] == sep
  {
    if s == [] then []
    else if s[|s| - 1] == sep then []
    else AfterLast(s[..|s| - 1], sep) + [s[|s| - 1]]
  }

  lemma {:induction false} SplitWithoutSep(s: string, sep: char)
    requires sep !in s
    ensures Split(s, sep) == [s]
  {
    if s != [] {
      assert sep !in s[1..];
      SplitWithoutSep(s[1..], sep);
      assert [s[0]] + s[1..] == s;
    }
  }

  lemma {:induction false} SplitWithSep(s: string, sep: char)
    requires sep in s
    ensures |Split(s, sep)| >= 2
  {
    if s[0] != sep {
      SplitWithSep(s[1..], sep);
    }
  }

  /** `split(sep).pop()` is the text after the last separator. */
  lemma {:induction false} LastPieceIsAfterLast(s: string, sep: char)
    ensures var parts := Split(s, sep); parts[|parts| - 1] == AfterLast(s, sep)
  {
    if sep !in s {
      LastPieceWithoutSep(s, sep);
    } else {
      var parts, rest := Split(s, sep), Split(s[1..], sep);
      LastPieceIsAfterLast(s[1..], sep);
      LastPieceOfTail(s, sep);
      AfterLastOfTail(s, sep);
      assert parts[|parts| - 1] == rest[|rest| - 1];
    }
  }

  /** Without a separator the single piece and the text after the last
      separator are both the whole text. */
  lemma LastPieceWithoutSep(s: string, sep: char)
    requires sep !in s
    ensures var parts := Split(s, sep); parts[|parts| - 1] == AfterLast(s, sep)
  {
    SplitWithoutSep(s, sep);
    assert s[|s| - |s|..] == s;
    AfterLastUnique(s, sep, s);
  }

  /** With a separator in `s`, the last piece of `s` is the last piece of its
      tail. */
  lemma LastPieceOfTail(s: string, sep: char)
    requires sep in s
    ensures var parts, rest := Split(s, sep), Split(s[1..], sep);
            parts[|parts| - 1] == rest[|rest| - 1]
  {
    var parts, rest := Split(s, sep), Split(s[1..], sep);
    if s[0] != sep {
      assert sep in s[1..];
      SplitWithSep(s[1..], sep);
      assert parts == [[s[0]] + rest[0]] + rest[1..];
      assert parts[|parts| - 1] == rest[1..][|rest| - 2];
    } else {
      assert parts == [[]] + rest;
    }
  }

  /** With a separator in `s`, the text after the last one is the same for
      `s` and for its tail. */
  lemma AfterLastOfTail(s: string, sep: char)
    requires sep in s
    ensures AfterLast(s, sep) == AfterLast(s[1..], sep)
  {
    var t := s[1..];
    var r := AfterLast(t, sep);
    assert t[|t| - |r|..] == s[|s| - |r|..];
    if |r| < |t| {
      assert t[|t| - |r| - 1] == s[|s| - |r| - 1];
    }
    AfterLastUnique(s, sep, r);
  }

  /** The three properties of `AfterLast` determine it. */
  lemma AfterLastUnique(s: string, sep: char, r: string)
    requires sep !in r
    requires |r| <= |s| && r == s[|s| - |r|..]
    requires |r| < |s| ==> s[|s| - |r| - 1] == sep
    ensures AfterLast(s, sep) == r
  {
    var a := AfterLast(s, sep);
  }

  predicate StartsWith(s: string, t: string) {
    |t| <= |s| && s[..|t|] == t
  }

  /** Case-sensitive `s.includes(t)`: `t` occurs in `s` at some position. */
  predicate Contains(s: string, t: string)
    decreases |s|
  {
    StartsWith(s, t) || (s != [] && Contains(s[1..], t))
  }

  /** The non-whitespace characters of `s`, in order. */
  function NonSpace(s: string): (r: string)
    ensures |r| <= |s|
    ensures forall i :: 0 <= i < |r| ==> !IsSpace(r[i])
  {
    if s == [] then []
    else if IsSpace(s[0]) then NonSpace(s[1..])
    else [s[0]] + NonSpace(s[1..])
  }

  lemma {:induction false} NonSpaceAppend(a: string, b: string)
    ensures NonSpace(a + b) == NonSpace(a) + NonSpace(b)
  {
    if a == [] {
      assert a + b == b;
    } else {
      assert (a + b)[1..] == a[1..] + b;
      NonSpaceAppend(a[1..], b);
    }
  }

  lemma {:induction false} NonSpaceOfSpaces(s: string)
    requires AllSpace(s)
    ensures NonSpace(s) == []
  {
    if s != [] {
      NonSpaceOfSpaces(s[1..]);
    }
  }
}
